=== FILE: README.md ===
# Kilobot light-consensus controller, modelled in Dafny

This project models the onboard controller of a Kilobot swarm robot
(`Kilobot_codes/Kilobot_main.c`). Each robot goes through three phases:

- **Dispersion.** The robot spreads out by random walking. Every message
  overwrites the stored distance, so it stops once the last peer it heard is
  farther than `MAX_DISTANCE`. It then waits for the neighbours still
  dispersing.
- **Consensus.** The robot measures ambient light and broadcasts its opinion
  `z_m` as fixed-point bytes. Once per window it averages the neighbours'
  reports into `z_col` with a streaming mean. It then updates `z_m` with a
  DeGroot-style convex combination of `z_m`, `z_col` and a fresh reading
  `z_s`.
- **Chemotaxis.** After `switch2Exploit` rounds, the robot drives to where the
  light matches the agreed opinion. It steers on the change of its distance to
  that reference and escapes when it has seen no change for too long.

The controller's global variables form one immutable `Agent` record
(`Robot.Agent`). Each callback is a pure step function on that record:

- `loop` is `Phases.LoopStep`.
- `dispersion`, `consensus` and `chemotaxis` are `Phases.DispersionStep`,
  `Phases.ConsensusStep` and `Phases.ChemotaxisStep`.
- `message_rx` is `Receive.Rx`.
- `message_tx` and `message_tx_success` are `Robot.MessageTx` and
  `Robot.MessageTxSuccess`.

The hardware inputs become arguments: the tick clock, the random byte, the
averaged light reading, the 20 measure readings and the distance estimate. The
motor calls become a log of `Drive.MotorCommand`s in `Drive.Motor`.

The modules follow the structure of the program:

- `Kilo` (base.dfy): machine integer types, the enumerations, C truncating
  conversions, and the wrapping `uint32_t` window test.
- `Wire` (wire.dfy): the 6-byte payload.
  - The bit operations are modelled on integers in `0 .. 2^32`: `>>` is
    division by a power of two, `& 0xFF` is `% 256`, `<< 8` drops the bits
    above bit 31, and `|` is a bitwise OR proved to be addition on disjoint
    bits.
  - Also here: big-endian packing, the ×1000 fixed point and the sub-state tags.
- `Drive` (drive.dfy): `set_motion`, the stall-escape spin and `do_random_walk`.
- `Neighbors` (neighbors.dfy): the 21-slot `ids`/`vals` mailbox, `contains_id`
  and the upsert of `message_rx`.
- `Opinion` (opinion.dfy): the opinion arithmetic, over `real`.
  - The streaming mean and the arithmetic mean it computes.
  - The mixing-weight schedule.
  - The DeGroot update and the chemotaxis smoothing.
- `Robot` (robot.dfy): the agent, its invariant `Valid`, the two send functions
  and the transmit gate.
- `Phases` (phases.dfy): the three phase functions and `loop`.
- `Receive` (receive.dfy): `message_rx`.
- `Scenarios` (scenarios.dfy): properties of runs over several calls.

`Robot.Valid` is the invariant every step keeps:

- The mailbox has distinct live ids.
- Every opinion and every live report lies in `[0, (2^32 - 1)/1000]`, so the
  `uint32_t x = z_m * 1000` of `send_light` is always defined.
- The round counter is not negative.
- The stall counter never exceeds 40.

Two behaviours are modelled as the code is written, although the code's own
comments and formulas point to a different intent:

- **No mixing-weight ramp.** `lamda` is declared as the amount by which the
  weight `g` is updated (line 55). The update `g + lamda*(counter/switch2Exploit)`
  (lines 253-254) reads as a linear ramp over the first 20 rounds. But the
  quotient is taken in integer division (line 253), which is 0 for every
  counter below 20. So the weight is exactly `g = 0.6` and then jumps to 0.99.
  See `Opinion.MixingWeightHasNoRamp` and `Scenarios.EarlyRoundsHaveNoRamp`.
- **Stall counter not reset by a gradient.** The comment on the escape (line 384)
  says it is for a robot that has kept reading the same value for some time,
  which suggests consecutive no-change steps. The code resets the counter only in
  the escape branch itself (lines 384-386), so it counts every no-change step
  since the last escape. See `Phases.ChemotaxisStep` and
  `Scenarios.StallCountSurvivesGradient`.

## Model

| member | source | states |
|---|---|---|
| Kilo.WindowElapsed | Kilobot_codes/Kilobot_main.c:154 | The `uint32_t` window test `kilo_ticks > tick + period`. Without wrap-around it holds exactly when more than `period` ticks have passed. When `tick + period` wraps, it compares against the wrapped sum, so it already holds at the tick the window started. |
| Kilo.CDiv | Kilobot_codes/Kilobot_main.c:253 | C's integer `/` truncates toward zero: the quotient has the sign of the dividend, and the remainder has the dividend's sign and is smaller than the divisor. |
| Kilo.Trunc | Kilobot_codes/Kilobot_main.c:274 | Converting a floating value to `int` truncates toward zero: the magnitude drops by less than one, a non-negative value goes to its floor, and a negative value goes to the negated floor of its magnitude. |
| Wire.OrByte | Kilobot_codes/Kilobot_main.c:519-526 | `light |= data[k]` on a value whose low byte was cleared by `<< 8` adds the byte. |
| Wire.UnpackBigEndian | Kilobot_codes/Kilobot_main.c:519-525 | The shift-and-OR reassembly of `data[2..5]` loses no bit. It yields the base-256 value of the four bytes. |
| Wire.PackBigEndian | Kilobot_codes/Kilobot_main.c:607-610 | `send_light` writes four bytes whose base-256 value is the fixed-point opinion `x`. |
| Wire.DigitsOfValue | Kilobot_codes/Kilobot_main.c:607-610 | The four bytes `send_light` writes are the base-256 digits of the value. |
| Wire.UnpackPack | Kilobot_codes/Kilobot_main.c:602-610 | Every `uint32_t` packed big-endian into four bytes by `send_light` is reassembled exactly by `message_rx`. |
| Wire.PackUnpack | Kilobot_codes/Kilobot_main.c:517-526 | Every four received bytes are reassembled to a value that `send_light`'s packing turns back into the same bytes. |
| Wire.Quantize | Kilobot_codes/Kilobot_main.c:604 | `uint32_t x = z_m * 1000` is the integer part of the scaled opinion. It is defined for opinions whose scaled value fits in 32 bits. |
| Wire.Dequantize | Kilobot_codes/Kilobot_main.c:527 | `light / (double) 1000` is a non-negative opinion that scales back to exactly `light`. |
| Wire.QuantizationBound | Kilobot_codes/Kilobot_main.c:602-610 | The fixed-point step loses less than 1/1000 and never rounds up: the decoded value is in `(v - 1/1000, v]`. |
| Wire.UidByte | Kilobot_codes/Kilobot_main.c:594 | Storing the 16-bit `kilo_uid` in the byte `data[0]` keeps its low eight bits: an id below 256 is sent unchanged, and any other id differs from its byte by a multiple of 256. |
| Wire.SubStateTag | Kilobot_codes/Kilobot_main.c:573-594 | `NULL` is tagged 0xAA, `WAIT_FOR_OTHERS` 0xAB, `READY_TO_SHARE` and `MEASURE` 0xCA, and every other sub-state 0xBB, each as an if-and-only-if. |
| Wire.EncodeOpinion | Kilobot_codes/Kilobot_main.c:602-611 | The opinion payload starts with the uid's low byte and the sharing tag 0xCA. |
| Wire.DecodeOpinion | Kilobot_codes/Kilobot_main.c:517-527 | Every received opinion is one an agent can hold and re-send. |
| Wire.OpinionRoundTrip | Kilobot_codes/Kilobot_main.c:602-615 | An opinion encoded by `send_light` and decoded by `message_rx` comes back within 1/1000, never above the original. |
| Wire.DecodeEncodeBytes | Kilobot_codes/Kilobot_main.c:517-527 | Decoding is exact on what arrives: re-encoding a decoded opinion reproduces the four bytes received. |
| Drive.CommandsFor | Kilobot_codes/Kilobot_main.c:96-114 | The commands issued for each motion drive that motion. Every motion except `STOP` first spins the motors up. |
| Drive.SetMotion | Kilobot_codes/Kilobot_main.c:89-116 | After `set_motion(m)` the motion is `m`. Motor commands are appended exactly when the motion changes, and then the last command drives `m`. Nothing issued earlier is lost. |
| Drive.SetMotionIdempotent | Kilobot_codes/Kilobot_main.c:92-95 | Calling `set_motion` twice with the same motion is the same as calling it once. |
| Drive.Spin | Kilobot_codes/Kilobot_main.c:387-388 | The raw spin of the escape issues two commands and leaves `current_motion` unchanged. |
| Drive.TurnThenForward | Kilobot_codes/Kilobot_main.c:346-372 | A pivot followed by `set_motion(FORWARD)` ends driving forward. When the pivot is a change, the last four commands are the turn's then the forward drive's. |
| Drive.WalkDirection | Kilobot_codes/Kilobot_main.c:118-150 | The walk never picks `STOP`. It goes forward exactly when `rnd % 4` is 0 or 1, left when it is 2, and right when it is 3. |
| Drive.RandomWalk | Kilobot_codes/Kilobot_main.c:118-150 | `do_random_walk` moves in the direction the random byte picks, which is never STOP. It keeps every earlier command, and issues new ones exactly when that direction differs from the current one. |
| Drive.CountWalkBlock | Kilobot_codes/Kilobot_main.c:124-150 | An aligned block of four bytes adds two forward draws, one left and one right. |
| Drive.WalkDistribution | Kilobot_codes/Kilobot_main.c:118-150 | Over the 256 random bytes: forward 128 times, left 64, right 64, stop 0. This is the 50% / 25% / 25% split the comments promise. |
| Drive.CountWalkBlocks | Kilobot_codes/Kilobot_main.c:124-150 | The first `k` aligned blocks of four bytes hold `2k` forward draws, `k` left, `k` right and no stop. |
| Neighbors.EmptyMailbox | Kilobot_codes/Kilobot_main.c:51-60 | The zero-initialised mailbox is well formed and empty. |
| Neighbors.Clear | Kilobot_codes/Kilobot_main.c:206 | `N = 0` empties the live part and keeps the mailbox well formed. |
| Neighbors.FindFrom | Kilobot_codes/Kilobot_main.c:618-622 | The scan from index `i` returns the first live index from `i` on holding `id`, or -1 exactly when there is none. |
| Neighbors.ContainsId | Kilobot_codes/Kilobot_main.c:617-623 | `contains_id` returns the first index below `N` whose id matches, or -1 exactly when no live id matches. |
| Neighbors.Upsert | Kilobot_codes/Kilobot_main.c:487-497 | A known id overwrites only its own value, with `N` and the ids unchanged. A new id is written at index `N` and `N` grows by one. Afterwards the id maps to the new value, every other id maps as before, and distinct ids stay distinct. |
| Neighbors.AppendKeepsLookups | Kilobot_codes/Kilobot_main.c:493-496 | Appending at index `N` keeps where every present id is found and finds the new id at the new slot. |
| Neighbors.OverwriteKeepsLookups | Kilobot_codes/Kilobot_main.c:490-491 | Overwriting one live value keeps where every id is found and what every other id maps to. |
| Neighbors.AppendFacts | Kilobot_codes/Kilobot_main.c:493-496 | Appending a new id keeps the ids distinct, maps the new id to its value, and leaves every other id as it was. |
| Neighbors.ContainsIdUnique | Kilobot_codes/Kilobot_main.c:617-623 | With distinct ids, the index `contains_id` returns is the only entry carrying the id. |
| Neighbors.UpsertIdempotent | Kilobot_codes/Kilobot_main.c:528-535 | Recording the same report twice leaves the mailbox as recording it once, and the second time needs no free slot. |
| Robot.Initial | Kilobot_codes/Kilobot_main.c:35-86 | The state after `setup` satisfies the invariant. The robot is dispersing and stopped, with an empty mailbox and no received message pending. The armed message is six zero bytes, `counter` is 1, and the tick and id are the given ones. |
| Robot.UpsertKeepsInRange | Kilobot_codes/Kilobot_main.c:528-535 | Recording an in-range report keeps every live report in range. |
| Robot.SendLight | Kilobot_codes/Kilobot_main.c:602-615 | `send_light` writes the uid byte and 0xCA, clears `message_sent`, and changes nothing else. The payload decodes to the opinion within 1/1000. |
| Robot.SendSubState | Kilobot_codes/Kilobot_main.c:573-600 | `send_subState` writes the uid byte and the sub-state's tag, keeps bytes 2..5, clears `message_sent`, and changes nothing else. |
| Robot.MessageTx | Kilobot_codes/Kilobot_main.c:543-548 | `message_tx` offers the message if and only if it has not been sent. |
| Robot.MessageTxSuccess | Kilobot_codes/Kilobot_main.c:550-553 | `message_tx_success` marks the message sent, after which nothing is offered. |
| Robot.TransmitGate | Kilobot_codes/Kilobot_main.c:543-553 | Once sent, a message is not offered again. A send function re-arms the gate, and then the new payload is offered. |
| Opinion.StreamingMean | Kilobot_codes/Kilobot_main.c:235-241 | After every step of the loop `z_col += (vals[i] - z_col) / t`, the running value lies between the smallest and the largest value seen so far. |
| Opinion.StreamingMeanIsMean | Kilobot_codes/Kilobot_main.c:236-241 | The loop `z_col += (vals[i] - z_col) / t; ++t` ends exactly at the arithmetic mean of the live values. |
| Opinion.SumAppend | Kilobot_codes/Kilobot_main.c:237-241 | The sum of a concatenation is the sum of the parts. |
| Opinion.SumPermutation | Kilobot_codes/Kilobot_main.c:237-241 | Reordering the reports does not change their sum. |
| Opinion.StreamingMeanOrderIndependent | Kilobot_codes/Kilobot_main.c:237-241 | The order in which reports arrived does not change `z_col`. |
| Opinion.SumWithin | Kilobot_codes/Kilobot_main.c:237-241 | Values in `[lo, hi]` sum to between `n*lo` and `n*hi`. |
| Opinion.MeanWithin | Kilobot_codes/Kilobot_main.c:237-241 | The mean of values in `[lo, hi]` is in `[lo, hi]`. |
| Opinion.Collective | Kilobot_codes/Kilobot_main.c:236-247 | `z_col` is the fallback when `N == 0` and the mean otherwise. It stays within any interval holding the reports and the fallback. |
| Opinion.MixingWeight | Kilobot_codes/Kilobot_main.c:249-259 | For every non-negative round counter, the weight of the neighbours' consensus lies between `g` and `1 - beta`. So with `beta` it forms an admissible convex combination. |
| Opinion.MixingWeightHasNoRamp | Kilobot_codes/Kilobot_main.c:249-259 | With the integer division at line 253, the weight is exactly `g = 0.6` for every counter below 20 and 0.99 from then on. |
| Opinion.MixingWeightMonotone | Kilobot_codes/Kilobot_main.c:249-259 | The weight never decreases as the counter grows, and it stays in `[0, 1 - beta]`, so all three DeGroot coefficients are non-negative. |
| Opinion.ConvexBetween | Kilobot_codes/Kilobot_main.c:261 | Non-negative weights summing to one keep a combination of three values within their bounds. |
| Opinion.DeGroot | Kilobot_codes/Kilobot_main.c:261 | For an admissible weight, the new `z_m` lies between the smallest and the largest of `z_m`, `z_col` and `z_s`. |
| Opinion.ConsensusUpdate | Kilobot_codes/Kilobot_main.c:249-261 | A consensus round with the scheduled weight keeps the opinion between the minimum and the maximum of its three inputs. |
| Opinion.Smooth | Kilobot_codes/Kilobot_main.c:298 | The chemotaxis smoothing stays between `z_m` and `z_col`, and leaves `z_m` unchanged when they agree. |
| Phases.OthersDone | Kilobot_codes/Kilobot_main.c:173-180 | When the `othersDone` scan passes, no neighbour's recorded report is the dispersing tag 0xAA. With distinct ids, it passes exactly then. |
| Phases.DispersionHeard | Kilobot_codes/Kilobot_main.c:159-199 | After a message: a close peer gives a random-walk step with sub-state `NULL`. A far peer issues STOP through `set_motion`. It moves on to CONSENSUS/MEASURE when no report is 0xAA, and otherwise waits. |
| Phases.DispersionStep | Kilobot_codes/Kilobot_main.c:152-208 | Nothing changes inside a window. At a rollover the tick is taken, `N` is reset and the message flag is cleared. With no message the robot is DISCONNECTED and stopped. With a message it walks, waits, or enters consensus, as the distance and the reports decide; a far peer issues STOP through `set_motion`. Only the tick, the flag, the phase, the motors, the stored distance and the mailbox can change. |
| Phases.SampleSum | Kilobot_codes/Kilobot_main.c:218-221 | The running total of the measure loop is bounded by the number of readings times the largest possible reading (0xFFFF). |
| Phases.SampleSumIsSum | Kilobot_codes/Kilobot_main.c:218-221 | The running total equals the sum of the readings. |
| Phases.MeasuredOpinion | Kilobot_codes/Kilobot_main.c:214-222 | The first opinion is a non-negative in-range value no larger than the largest possible reading. |
| Phases.MeasuredOpinionIsMean | Kilobot_codes/Kilobot_main.c:214-222 | The first opinion is the arithmetic mean of the 20 readings. |
| Phases.LiveCollective | Kilobot_codes/Kilobot_main.c:235-247 | The collective opinion of the live reports, or the fallback when there is none, is in range. |
| Phases.AveragingRound | Kilobot_codes/Kilobot_main.c:233-264 | An averaging round counts one more round, takes the fresh reading as `z_s`, and uses the reading when `N == 0` and the mean otherwise as `z_col`. The new `z_m` lies between the minimum and the maximum of the three. It resets `N` and keeps the invariant. Only the tick, `z_col`, the counter, `z_s`, `z_m` and the mailbox change. |
| Phases.ExploitCheck | Kilobot_codes/Kilobot_main.c:272-282 | At `counter == switch2Exploit` the robot enters CHEMOTAXIS with `ref_light` the truncated opinion and counter 101. Otherwise nothing changes, and no other field ever changes. |
| Phases.Share | Kilobot_codes/Kilobot_main.c:231-283 | The counter advances by one per elapsed window. The switch to chemotaxis happens exactly when the counter reaches `switch2Exploit`. The motors, the chemotaxis memory and the message are untouched. |
| Phases.Broadcast | Kilobot_codes/Kilobot_main.c:212-229 | On `MEASURE` the counter restarts at 0, the opinion becomes the mean of the readings, and the sub-state becomes SHARING. Then the opinion is broadcast with the sharing tag, within 1/1000, and the gate is re-armed. Nothing else changes. |
| Phases.ConsensusStep | Kilobot_codes/Kilobot_main.c:210-284 | Every call re-arms the opinion message, which decodes within 1/1000 of the opinion: the measured mean on `MEASURE`, the current opinion otherwise. A sharing call that reaches a window rollover takes the fresh reading, resets `N`, and keeps the opinion between the extremes of its inputs; inside a window the opinion and the mailbox are unchanged. The robot stays in consensus or enters CHEMOTAXIS, and then only with counter 101 and `ref_light` the truncated opinion. The motors, the received-message flag and the chemotaxis memory are untouched. |
| Phases.ConsensusSchedule | Kilobot_codes/Kilobot_main.c:214-282 | `MEASURE` restarts the round count. A sharing call counts one round per elapsed window. The robot moves to chemotaxis exactly when the count reaches `switch2Exploit`, and the count then steps to 101. Other sub-states only broadcast. |
| Phases.SmoothingRound | Kilobot_codes/Kilobot_main.c:288-300 | The chemotaxis averaging round leaves `z_m` unchanged with no reports, and otherwise moves it between `z_m` and the mean. It resets `N`. |
| Phases.EscapeTurn | Kilobot_codes/Kilobot_main.c:390-399 | The escape turns right exactly when the random byte is below 180, and left otherwise. |
| Phases.Steer | Kilobot_codes/Kilobot_main.c:338-370 | A distance change below 0 is one `set_motion(FORWARD)`. One above 1 issues STOP, then ends with the RIGHT pivot's and FORWARD's commands. One in `[0, 1]` issues nothing. |
| Phases.Seek | Kilobot_codes/Kilobot_main.c:325-382 | With a gradient signal it updates `last_light`, `last_dist2Ref` and `z_s`, and leaves the stall counter alone. A gradient below 0 is one `set_motion(FORWARD)`, one above 1 pivots right then drives forward, and one in `[0, 1]` leaves the motors alone. Without a signal it is one `set_motion(FORWARD)` and counts the step. Only the motors and the chemotaxis memory change. |
| Phases.StallCheck | Kilobot_codes/Kilobot_main.c:384-406 | Past 40 no-change steps the counter resets to 0 and the robot ends driving forward. The raw spin's commands are issued first. When the random pivot is a change of motion, the last commands are the pivot's (RIGHT when `rnd < 180`, LEFT otherwise) followed by the forward drive. Nothing else changes, and the counter is back within its bound. Below the limit nothing changes at all. |
| Phases.Navigate | Kilobot_codes/Kilobot_main.c:310-406 | Within 50 of the reference it is one `set_motion(STOP)` and nothing else changes. Otherwise it seeks and then checks for a stall: a gradient below 0 is one `set_motion(FORWARD)`, and a no-change step below the limit is one `set_motion(FORWARD)` plus a count. Only the motors and the chemotaxis memory change. |
| Phases.Rollover | Kilobot_codes/Kilobot_main.c:288-300 | At a window rollover, `z_m` stays unchanged when no neighbour reported, and otherwise lies between the old `z_m` and the mean of the live reports. `N` is reset and the tick is taken. Only those fields change. Inside a window nothing changes. |
| Phases.ChemotaxisStep | Kilobot_codes/Kilobot_main.c:286-407 | At a window rollover, `z_m` is smoothed toward the mean of the live reports: it stays unchanged when there are none, and otherwise lies between the old `z_m` and that mean. Then `N` is reset. `ref_light` is re-pinned to the truncated opinion and `dist2Ref` is `|ambient - ref_light|`. On arrival it is one `set_motion(STOP)` with the stall counter unchanged. A gradient below 0, or a no-change step below the limit, is one `set_motion(FORWARD)`. A gradient step leaves the stall counter unchanged. A no-change step increments it, or escapes at 40. The counter never exceeds 40. The phase, the message and the received-message flag are untouched. |
| Phases.LoopStep | Kilobot_codes/Kilobot_main.c:434-472 | `loop` keeps the invariant. Chemotaxis is never left by `loop`, and dispersion never jumps straight to chemotaxis. |
| Receive.Records | Kilobot_codes/Kilobot_main.c:483-517 | A robot still dispersing itself records nothing. Outside dispersion, a dispersing report (0xAA) is never recorded. |
| Receive.Report | Kilobot_codes/Kilobot_main.c:490-527 | The value recorded is the sender's tag during dispersion and the decoded opinion otherwise. Either way it is in range. |
| Receive.Rx | Kilobot_codes/Kilobot_main.c:475-541 | Every receive sets `new_message` and the distance and re-arms a reply. In DISPERSION the robot answers with its sub-state's tag and records the sender only when its own sub-state is not `NULL`. Elsewhere, 0xAA sends it back to DISPERSION/WAIT_FOR_OTHERS. Only 0xCA is recorded, and any other tag leaves the mailbox untouched. A recorded sender maps to its report and every other id is unchanged. `ref_light`, `last_light`, `last_dist2Ref`, `z_s`, `z_col`, the opinion and the motors are untouched. |
| Receive.SharedOpinionArrives | Kilobot_codes/Kilobot_main.c:517-535 | An opinion broadcast by `send_light` and received outside dispersion is recorded under the sender's id byte, within 1/1000 of the sender's opinion and never above it. |
| Receive.RxIdempotent | Kilobot_codes/Kilobot_main.c:487-497 | A duplicated payload has the effect of one, unless the first copy sent the robot back to dispersion. |
| Scenarios.FarLoneRobotStartsConsensus | Kilobot_codes/Kilobot_main.c:164-199 | A fresh robot that hears one far peer is in CONSENSUS/MEASURE and stopped after the next rollover, whatever the peer sent. While its own sub-state is `NULL` it records nothing, even a 0xAA report, so its mailbox stays empty and the `othersDone` scan passes. |
| Scenarios.SilenceHalts | Kilobot_codes/Kilobot_main.c:200-206 | A robot that hears nothing is DISCONNECTED and stopped after one rollover. Further silent windows issue no motor command. |
| Scenarios.DispersingNeighbourBlocksSharing | Kilobot_codes/Kilobot_main.c:487-497 | A waiting robot that records a 0xAA report keeps waiting at the next rollover, however far the peer is. |
| Scenarios.LastRoundStartsChemotaxis | Kilobot_codes/Kilobot_main.c:243-282 | The round that brings the counter from 99 to 100 hands over to chemotaxis with counter 101 and the pinned reference, and `loop` stays in chemotaxis. |
| Scenarios.EarlierRoundsStayInConsensus | Kilobot_codes/Kilobot_main.c:243-282 | Rounds before the last keep the robot sharing in consensus. |
| Scenarios.EarlyRoundsHaveNoRamp | Kilobot_codes/Kilobot_main.c:249-261 | As written, in every consensus round that brings the counter below 20, the new opinion is `0.01*z_m + 0.6*z_col + 0.39*z_s`, which is line 261 with the fixed `g = 0.6`. The round number has no effect. |
| Scenarios.NoRampRound | Kilobot_codes/Kilobot_main.c:249-261 | As written, an averaging round that brings the counter below 20 computes `0.01*z_m + 0.6*z_col + 0.39*z_s`. |
| Scenarios.StallCountSurvivesGradient | Kilobot_codes/Kilobot_main.c:325-388 | As written, a robot at the stall limit that senses a gradient and then one unchanged reading escapes on that second step. The gradient did not reset the counter. |

## Left out

- Hardware and kilolib calls (`set_motors`, `spinup_motors`, `set_color`,
  `delay`, `rand_soft`, `rand_hard`, `message_crc`, `estimate_distance`,
  `get_ambientlight`) are not modelled. Their results are inputs; the motor
  calls are a command log.
- LED colours and delays are left out: they have no control effect.
- `get_averaged_ambient_light` (lines 626-639) is a busy-wait on the sensor.
  Its result is the `light` argument, and the 20 readings of the measure loop
  are the `samples` argument.
- `setup` and `main` (lines 410-432, 556-571) only wire callbacks and seed the
  random generator. `Robot.Initial` takes their resulting state, including
  `counter = 1` and `lamda = 1 - beta - g`. The random offset added to
  `kilo_ticks` is part of the initial tick argument.
- The stored `distance_measurement_t` is represented by the estimate
  `estimate_distance` makes of it. The robot's own distance is the `dist`
  argument of `Receive.Rx`.
- Floating-point rounding is not modelled. `double`, `long double` and `float`
  are idealised as `real`.
- The undefined behaviour of `uint32_t x = z_m * 1000` for negative or huge
  opinions cannot arise: the invariant keeps every opinion in range.
- C `int` is treated as unbounded (it is 16 bits on the AVR target). The
  model does not wrap the counters, light values or their differences.
- Interrupt interleaving between `message_rx` and `loop` is not modelled. Each
  call is one atomic step on the agent.
- Mailbox overflow past 21 entries is undefined in the source. The upsert
  requires a free slot for a new id (`Neighbors.HasRoom`) instead of inventing
  an eviction policy.
- The dead `else` turn-left branch under `if(1)` (lines 353-362) is left out.
  The unused `rand_soft()` draw before it is left out too.
- The kilolib message header (`type`, `crc`, bytes 6..8) is left out. Only
  `data[0..5]` is modelled.
- Mailbox values are compared with `== DISPERSING_RX` exactly, as in the
  source. A neighbour opinion equal to 170.0 left over in the mailbox after a
  regression would read as a dispersing report. The model inherits this
  behaviour and states no property about it.

=== FILE: base.dfy ===
/** Machine types, enumerations and C arithmetic shared by the whole Kilobot
    controller model (Kilobot_codes/Kilobot_main.c). */
module Kilo {

  /** An 8-bit unsigned value (`uint8_t`). */
  type byte = x: int | 0 <= x < 256

  /** A 16-bit unsigned value (`uint16_t`), e.g. an ambient-light reading. */
  type u16 = x: int | 0 <= x < 0x1_0000

  /** A 32-bit unsigned value (`uint32_t`), e.g. the tick clock. */
  type u32 = x: int | 0 <= x < 0x1_0000_0000

  const TwoTo32: int := 0x1_0000_0000

  datatype Option<+T> = None | Some(value: T)

  /** Motion commands (`STOP`, `FORWARD`, `LEFT`, `RIGHT`). */
  datatype Motion = Stop | Forward | Left | Right

  /** The three top-level states (`DISPERSION`, `CONSENSUS`, `CHEMOTAXIS`). */
  datatype Phase = Dispersion | Consensus | Chemotaxis

  /** Sub-states; `Dispersing` is the source's `NULL` (0, "still dispersing"). */
  datatype SubState = Dispersing | WaitForOthers | Disconnected | ReadyToShare | Measure | Sharing

  /** Separation threshold of the dispersion phase (`MAX_DISTANCE`, mm). */
  const MaxDistance: int := 60

  function Abs(x: int): (r: nat)
    ensures r == x || r == -x
  {
    if x < 0 then -x else x
  }

  /** C's `/` on `int`, which truncates toward zero (Dafny's `/` is Euclidean). */
  function CDiv(a: int, b: int): (q: int)
    requires b > 0
    ensures a >= 0 ==> q >= 0 && 0 <= a - q * b < b
    ensures a < 0 ==> q <= 0 && -b < a - q * b <= 0
  {
    if a >= 0 then a / b else -((-a) / b)
  }

  /** Conversion of a floating value to `int`, which truncates toward zero. */
  function Trunc(r: real): (n: int)
    ensures Abs(n) as real <= (if r < 0.0 then -r else r) < Abs(n) as real + 1.0
    ensures r >= 0.0 ==> n >= 0 && n == r.Floor
    ensures r < 0.0 ==> n <= 0 && n == -((-r).Floor)
  {
    if r >= 0.0 then r.Floor else -((-r).Floor)
  }

  /** The window test `kilo_ticks > tick + period`. Both clocks are `uint32_t`,
      so the sum `tick + period` wraps around modulo 2^32. Without wrap-around
      the test is the plain elapsed-time comparison; when the sum wraps, the
      test already holds at the very tick the window started. */
  function WindowElapsed(now: u32, last: u32, period: nat): (e: bool)
    ensures last + period < TwoTo32 ==> (e <==> now - last > period)
    ensures TwoTo32 <= last + period < TwoTo32 + last ==> (e <==> now > last + period - TwoTo32)
    ensures TwoTo32 <= last + period < TwoTo32 + last && now == last ==> e
  {
    now > (last + period) % TwoTo32
  }
}

=== FILE: drive.dfy ===
/** The motion layer: `set_motion` (issue motor commands only on a change)
    and the random walk of the dispersion phase. */
module Drive {
  import opened Kilo

  /** Motor duty settings: the calibrated constants of the robot
      (`kilo_straight_left`, ...) or a literal duty value. */
  datatype Speed = Off | StraightLeft | StraightRight | TurnLeft | TurnRight | Duty(level: byte)

  /** The hardware calls the controller makes on the motors. */
  datatype MotorCommand = Spinup | SetMotors(left: Speed, right: Speed)

  /** `current_motion` together with the commands issued to the motors so far. */
  datatype Motor = Motor(current: Motion, issued: seq<MotorCommand>)

  /** The commands `set_motion` issues when it switches to `m`. */
  function CommandsFor(m: Motion): (cmds: seq<MotorCommand>)
    ensures Drives(cmds) == Some(m)
    ensures cmds[0] == Spinup <==> m != Stop
  {
    match m
    case Stop => [SetMotors(Off, Off)]
    case Forward => [Spinup, SetMotors(StraightLeft, StraightRight)]
    case Left => [Spinup, SetMotors(TurnLeft, Off)]
    case Right => [Spinup, SetMotors(Off, TurnRight)]
  }

  /** The motion the last command of a non-empty command list drives. */
  function Drives(cmds: seq<MotorCommand>): Option<Motion>
  {
    if |cmds| == 0 then None
    else match cmds[|cmds| - 1]
      case SetMotors(Off, Off) => Some(Stop)
      case SetMotors(StraightLeft, StraightRight) => Some(Forward)
      case SetMotors(TurnLeft, Off) => Some(Left)
      case SetMotors(Off, TurnRight) => Some(Right)
      case _ => None
  }

  /** `set_motion`: the motion becomes `m`; the motors are commanded, with the
      commands for `m`, exactly when the motion changes. */
  function SetMotion(d: Motor, m: Motion): (r: Motor)
    ensures r.current == m
    ensures d.issued <= r.issued
    ensures |r.issued| > |d.issued| <==> d.current != m
    ensures d.current != m ==> Drives(r.issued) == Some(m)
  {
    if d.current != m then Motor(m, d.issued + CommandsFor(m)) else d
  }

  /** Setting the same motion twice is the same as setting it once. */
  lemma SetMotionIdempotent(d: Motor, m: Motion)
    ensures SetMotion(SetMotion(d, m), m) == SetMotion(d, m)
  {
  }

  /** The raw `spinup_motors(); set_motors(180, 180)` of the stall escape,
      which bypasses `set_motion` and leaves `current_motion` alone. */
  function Spin(d: Motor): (r: Motor)
    ensures r.current == d.current
    ensures |r.issued| == |d.issued| + 2 && d.issued <= r.issued
  {
    Motor(d.current, d.issued + [Spinup, SetMotors(Duty(180), Duty(180))])
  }

  /** `set_motion(turn); ...; set_motion(FORWARD)`: a pivot that ends driving
      forward. When the pivot is a change, the last commands issued are the
      turn's followed by the forward drive. */
  function TurnThenForward(d: Motor, turn: Motion): (r: Motor)
    requires turn == Left || turn == Right
    ensures r.current == Forward
    ensures d.issued <= r.issued
    ensures d.current != turn ==>
      |r.issued| >= 4 && r.issued[|r.issued| - 4..] == CommandsFor(turn) + CommandsFor(Forward)
  {
    SetMotion(SetMotion(d, turn), Forward)
  }

  /** The direction `do_random_walk` picks from a random byte: remainder 0 or 1
      goes forward, 2 turns left, 3 turns right. */
  function WalkDirection(rnd: byte): (m: Motion)
    ensures m != Stop
    ensures m == Forward <==> rnd % 4 < 2
    ensures m == Left <==> rnd % 4 == 2
    ensures m == Right <==> rnd % 4 == 3
  {
    var direction := rnd % 4;
    if direction == 0 || direction == 1 then Forward
    else if direction == 2 then Left
    else Right
  }

  /** `do_random_walk`: `set_motion` of the direction the random byte picks. */
  function RandomWalk(d: Motor, rnd: byte): (r: Motor)
    ensures r.current != Stop && r.current == WalkDirection(rnd)
    ensures d.issued <= r.issued
    ensures |r.issued| > |d.issued| <==> d.current != WalkDirection(rnd)
  {
    SetMotion(d, WalkDirection(rnd))
  }

  /** The number of values of a random byte. */
  const ByteCount: nat := 256

  /** How many of the bytes `0`, ..., `hi - 1` make the walk pick `m`. */
  function CountWalk(hi: nat, m: Motion): nat
    requires hi <= ByteCount
  {
    if hi == 0 then 0
    else CountWalk(hi - 1, m) + (if WalkDirection(hi - 1) == m then 1 else 0)
  }

  /** How many of the four bytes of an aligned block make the walk pick `m`. */
  function BlockShare(m: Motion): nat
  {
    match m
    case Forward => 2
    case Stop => 0
    case _ => 1
  }

  /** An aligned block of four bytes adds two forward draws, one left and one
      right. */
  lemma CountWalkBlock(lo: nat, m: Motion)
    requires lo % 4 == 0 && lo + 4 <= ByteCount
    ensures CountWalk(lo + 4, m) == CountWalk(lo, m) + BlockShare(m)
  {
    assert WalkDirection(lo) == Forward && WalkDirection(lo + 1) == Forward;
    assert WalkDirection(lo + 2) == Left && WalkDirection(lo + 3) == Right;
    assert CountWalk(lo + 4, m) == CountWalk(lo + 3, m) + (if WalkDirection(lo + 3) == m then 1 else 0);
    assert CountWalk(lo + 3, m) == CountWalk(lo + 2, m) + (if WalkDirection(lo + 2) == m then 1 else 0);
    assert CountWalk(lo + 2, m) == CountWalk(lo + 1, m) + (if WalkDirection(lo + 1) == m then 1 else 0);
    assert CountWalk(lo + 1, m) == CountWalk(lo, m) + (if WalkDirection(lo) == m then 1 else 0);
  }

  /** The first `k` aligned blocks hold `2k` forward draws, `k` left and `k`
      right. */
  lemma {:induction false} CountWalkBlocks(k: nat, m: Motion)
    requires 4 * k <= ByteCount
    ensures CountWalk(4 * k, m) == k * BlockShare(m)
    decreases k
  {
    if k > 0 {
      var lo := 4 * (k - 1);
      CountWalkBlocks(k - 1, m);
      assert lo % 4 == 0 && lo + 4 == 4 * k;
      CountWalkBlock(lo, m);
      assert k * BlockShare(m) == (k - 1) * BlockShare(m) + BlockShare(m);
    }
  }

  /** Over all 256 random bytes the walk goes forward 128 times and turns left
      and right 64 times each: the 50% / 25% / 25% split the walk intends. */
  lemma WalkDistribution()
    ensures CountWalk(ByteCount, Forward) == 128
    ensures CountWalk(ByteCount, Left) == 64
    ensures CountWalk(ByteCount, Right) == 64
    ensures CountWalk(ByteCount, Stop) == 0
  {
    CountWalkBlocks(64, Forward);
    CountWalkBlocks(64, Left);
    CountWalkBlocks(64, Right);
    CountWalkBlocks(64, Stop);
  }
}

=== FILE: neighbors.dfy ===
/** The neighbour mailbox: the parallel arrays `ids[21]` / `vals[21]` and the
    count `N` of entries collected since the last window rollover. */
module Neighbors {
  import opened Kilo

  /** The declared length of `ids` and `vals`. */
  const Capacity: nat := 21

  /** Both arrays keep all 21 slots; only the first `n` are live. Clearing the
      mailbox resets `n` and leaves the stale slots in place, as the source does. */
  datatype Mailbox = Mailbox(ids: seq<int>, vals: seq<real>, n: nat) {

    predicate Valid()
    {
      |ids| == Capacity && |vals| == Capacity && n <= Capacity
    }

    /** No id occurs twice among the live entries. */
    predicate Distinct()
      requires Valid()
    {
      forall i, j :: 0 <= i < j < n ==> ids[i] != ids[j]
    }

    /** The live values, in arrival order. */
    function Live(): (s: seq<real>)
      requires Valid()
      ensures |s| == n
    {
      vals[..n]
    }
  }

  /** The zero-initialised globals. */
  function EmptyMailbox(): (m: Mailbox)
    ensures m.Valid() && m.n == 0 && m.Distinct()
  {
    Mailbox(seq(Capacity, _ => 0), seq(Capacity, _ => 0.0), 0)
  }

  /** `N = 0`: forget the live entries. */
  function Clear(m: Mailbox): (r: Mailbox)
    requires m.Valid()
    ensures r.Valid() && r.Distinct() && r.n == 0
  {
    m.(n := 0)
  }

  /** The scan of `contains_id` from index `i` on. */
  function FindFrom(m: Mailbox, id: int, i: nat): (r: int)
    requires m.Valid() && i <= m.n
    ensures r == -1 || i <= r < m.n
    ensures r == -1 <==> forall k :: i <= k < m.n ==> m.ids[k] != id
    ensures r != -1 ==> m.ids[r] == id && forall k :: i <= k < r ==> m.ids[k] != id
    decreases m.n - i
  {
    if i == m.n then -1
    else if m.ids[i] == id then i
    else FindFrom(m, id, i + 1)
  }

  /** `contains_id`: the first live index holding `id`, or -1 when there is none. */
  function ContainsId(m: Mailbox, id: int): (r: int)
    requires m.Valid()
    ensures -1 <= r < m.n
    ensures r == -1 <==> forall k :: 0 <= k < m.n ==> m.ids[k] != id
    ensures r != -1 ==> m.ids[r] == id && forall k :: 0 <= k < r ==> m.ids[k] != id
  {
    FindFrom(m, id, 0)
  }

  /** The mailbox read as a map from id to the value it holds. */
  function Lookup(m: Mailbox, id: int): Option<real>
    requires m.Valid()
  {
    var k := ContainsId(m, id);
    if k == -1 then None else Some(m.vals[k])
  }

  /** The source writes `ids[N]` without a capacity check, so an unknown id
      needs a free slot; a known id is always accepted. */
  predicate HasRoom(m: Mailbox, id: int)
    requires m.Valid()
  {
    ContainsId(m, id) != -1 || m.n < Capacity
  }

  /** The upsert of `message_rx`: overwrite the value of a known id, otherwise
      append `(id, v)` at index `N` and grow `N`. */
  function Upsert(m: Mailbox, id: int, v: real): (r: Mailbox)
    requires m.Valid() && HasRoom(m, id)
    ensures r.Valid()
    ensures m.Distinct() ==> r.Distinct()
    ensures Lookup(r, id) == Some(v)
    ensures forall other :: other != id ==> Lookup(r, other) == Lookup(m, other)
    ensures ContainsId(m, id) != -1 ==>
      && r.n == m.n && r.ids == m.ids
      && r.vals[ContainsId(m, id)] == v
      && forall k :: 0 <= k < Capacity && k != ContainsId(m, id) ==> r.vals[k] == m.vals[k]
    ensures ContainsId(m, id) == -1 ==>
      && r.n == m.n + 1 && r.ids[m.n] == id && r.vals[m.n] == v
      && forall k :: 0 <= k < Capacity && k != m.n ==> r.ids[k] == m.ids[k] && r.vals[k] == m.vals[k]
  {
    var ind := ContainsId(m, id);
    if ind != -1 then
      var r := m.(vals := m.vals[ind := v]);
      OverwriteKeepsLookups(m, r, ind);
      r
    else
      var r := Mailbox(m.ids[m.n := id], m.vals[m.n := v], m.n + 1);
      AppendKeepsLookups(m, r);
      AppendFacts(m, r, id, v);
      r
  }

  /** Appending a new id keeps the ids distinct, maps the new id to its value
      and every other id as before. */
  lemma AppendFacts(m: Mailbox, r: Mailbox, id: int, v: real)
    requires m.Valid() && m.n < Capacity && ContainsId(m, id) == -1
    requires r == Mailbox(m.ids[m.n := id], m.vals[m.n := v], m.n + 1)
    requires forall x :: ContainsId(m, x) != -1 ==> ContainsId(r, x) == ContainsId(m, x)
    requires forall x :: ContainsId(m, x) == -1 && x != r.ids[m.n] ==> ContainsId(r, x) == -1
    requires ContainsId(r, id) == m.n
    ensures r.Valid()
    ensures m.Distinct() ==> r.Distinct()
    ensures Lookup(r, id) == Some(v)
    ensures forall other :: other != id ==> Lookup(r, other) == Lookup(m, other)
  {
    forall other | other != id
      ensures Lookup(r, other) == Lookup(m, other)
    {
      var k := ContainsId(m, other);
      if k != -1 {
        assert r.vals[k] == m.vals[k];
      }
    }
    if m.Distinct() {
      forall i, j | 0 <= i < j < r.n
        ensures r.ids[i] != r.ids[j]
      {
        if j == m.n {
          assert m.ids[i] != id;
        }
      }
    }
  }

  /** Changing one live value keeps where every id is found. */
  lemma OverwriteKeepsLookups(m: Mailbox, r: Mailbox, ind: nat)
    requires m.Valid() && r.Valid() && r.ids == m.ids && r.n == m.n && ind < m.n
    requires forall k :: 0 <= k < Capacity && k != ind ==> r.vals[k] == m.vals[k]
    ensures forall id :: ContainsId(r, id) == ContainsId(m, id)
    ensures forall id :: id != m.ids[ind] ==> Lookup(r, id) == Lookup(m, id)
    ensures m.Distinct() ==> r.Distinct()
  {
    forall id
      ensures ContainsId(r, id) == ContainsId(m, id)
    {
      var a := ContainsId(m, id);
      var b := ContainsId(r, id);
      if a != -1 && b != -1 {
        assert a <= b && b <= a;
      }
    }
    forall id | id != m.ids[ind]
      ensures Lookup(r, id) == Lookup(m, id)
    {
      var k := ContainsId(m, id);
      assert k != ind;
    }
  }

  /** Growing the live prefix by one entry keeps where every other id is found,
      and finds the new id at the new slot when it was absent. */
  lemma AppendKeepsLookups(m: Mailbox, r: Mailbox)
    requires m.Valid() && r.Valid() && m.n < Capacity && r.n == m.n + 1
    requires forall k :: 0 <= k < m.n ==> r.ids[k] == m.ids[k]
    ensures forall id :: ContainsId(m, id) != -1 ==> ContainsId(r, id) == ContainsId(m, id)
    ensures forall id :: ContainsId(m, id) == -1 && id != r.ids[m.n] ==> ContainsId(r, id) == -1
    ensures ContainsId(m, r.ids[m.n]) == -1 ==> ContainsId(r, r.ids[m.n]) == m.n
  {
    forall id | ContainsId(m, id) != -1
      ensures ContainsId(r, id) == ContainsId(m, id)
    {
      var k := ContainsId(m, id);
      assert r.ids[k] == id;
    }
    var id := r.ids[m.n];
    if ContainsId(m, id) == -1 {
      var k := ContainsId(r, id);
      assert k != -1;
    }
  }

  /** In a mailbox with distinct ids, the entry an id is found at is the only
      one carrying that id. */
  lemma ContainsIdUnique(m: Mailbox, id: int, k: nat)
    requires m.Valid() && m.Distinct()
    requires k < m.n && m.ids[k] == id
    ensures ContainsId(m, id) == k
  {
  }

  /** In a mailbox with distinct ids, every live entry is what its id looks up. */
  lemma LookupLive(m: Mailbox)
    requires m.Valid() && m.Distinct()
    ensures forall k :: 0 <= k < m.n ==> Lookup(m, m.ids[k]) == Some(m.vals[k])
  {
    forall k | 0 <= k < m.n
      ensures Lookup(m, m.ids[k]) == Some(m.vals[k])
    {
      ContainsIdUnique(m, m.ids[k], k);
    }
  }

  /** Recording the same report twice leaves the mailbox as recording it once. */
  lemma UpsertIdempotent(m: Mailbox, id: int, v: real)
    requires m.Valid() && HasRoom(m, id)
    ensures HasRoom(Upsert(m, id, v), id)
    ensures Upsert(Upsert(m, id, v), id, v) == Upsert(m, id, v)
  {
    var r := Upsert(m, id, v);
    var k := ContainsId(r, id);
    assert r.vals[k] == v;
    assert r.vals[k := v] == r.vals;
  }
}

=== FILE: opinion.dfy ===
/** The opinion estimator: the streaming mean of the neighbours' reports, the
    mixing weight schedule and the DeGroot-style updates of the posterior
    opinion `z_m`. Arithmetic is over `real`, an idealisation of the
    `double` / `long double` code without rounding. */
module Opinion {
  import opened Kilo

  /** Memory (self-weight) `beta`. */
  const Beta: real := 0.01
  /** Base weight of the neighbours' consensus, `g`. */
  const G: real := 0.6
  /** `lamda = 1.0 - beta - g`, as `setup` sets it. */
  const Lamda: real := 1.0 - Beta - G
  /** Weight of the neighbours' consensus once the schedule saturates. */
  const LateWeight: real := 0.99
  /** Counter value below which the weight follows the first schedule branch. */
  const RampRounds: int := 20
  /** `switch2Exploit`: number of averaging rounds before chemotaxis. */
  const SwitchToExploit: int := 100

  function Sum(xs: seq<real>): real
  {
    if |xs| == 0 then 0.0 else Sum(xs[..|xs| - 1]) + xs[|xs| - 1]
  }

  /** The arithmetic mean, the reference the streaming mean is checked against. */
  function Mean(xs: seq<real>): real
    requires |xs| > 0
  {
    Sum(xs) / |xs| as real
  }

  /** The smallest of a non-empty sequence of values. */
  function Lowest(xs: seq<real>): real
    requires |xs| > 0
  {
    if |xs| == 1 then xs[0]
    else
      var l := Lowest(xs[..|xs| - 1]);
      if xs[|xs| - 1] < l then xs[|xs| - 1] else l
  }

  /** The largest of a non-empty sequence of values. */
  function Highest(xs: seq<real>): real
    requires |xs| > 0
  {
    if |xs| == 1 then xs[0]
    else
      var h := Highest(xs[..|xs| - 1]);
      if xs[|xs| - 1] > h then xs[|xs| - 1] else h
  }

  /** One step `z + (x - z) / n` of the streaming mean lands between the old
      mean `z` and the new value `x`, and on `x` itself for the first value. */
  lemma StepBetween(z: real, x: real, n: real)
    requires n >= 1.0
    ensures z <= x ==> z <= z + (x - z) / n <= x
    ensures x < z ==> x <= z + (x - z) / n <= z
    ensures n == 1.0 ==> z + (x - z) / n == x
  {
    var d := x - z;
    assert d / n * n == d;
    if d >= 0.0 {
      assert d / n >= 0.0;
      assert d / n <= d / n * n;
    } else {
      assert d / n < 0.0;
      assert d / n * n <= d / n;
    }
  }

  /** The loop `z_col = 0; t = 1; for each value: z_col += (value - z_col) / t; ++t`.
      After every step the running mean lies between the smallest and the
      largest value seen so far. */
  function StreamingMean(xs: seq<real>): (z: real)
    ensures |xs| > 0 ==> Lowest(xs) <= z <= Highest(xs)
  {
    if |xs| == 0 then 0.0
    else
      var z := StreamingMean(xs[..|xs| - 1]);
      var x := xs[|xs| - 1];
      StepBetween(z, x, |xs| as real);
      z + (x - z) / |xs| as real
  }

  /** The incremental update computes exactly the arithmetic mean. */
  lemma {:induction false} StreamingMeanIsMean(xs: seq<real>)
    requires |xs| > 0
    ensures StreamingMean(xs) == Mean(xs)
    decreases |xs|
  {
    var k := |xs| - 1;
    var p := xs[..k];
    var x := xs[k];
    if k > 0 {
      StreamingMeanIsMean(p);
      var z := StreamingMean(p);
      var n := k as real;
      assert z == Sum(p) / n;
      assert StreamingMean(xs) == z + (x - z) / (n + 1.0);
      assert Mean(xs) == (Sum(p) + x) / (n + 1.0);
      MeanStep(z, x, n, Sum(p));
    }
  }

  /** The algebra of one streaming step: a mean `z` of `n` values with sum `s`
      moves to the mean of the `n + 1` values once `x` arrives. */
  lemma MeanStep(z: real, x: real, n: real, s: real)
    requires n >= 1.0 && z == s / n
    ensures z + (x - z) / (n + 1.0) == (s + x) / (n + 1.0)
  {
    assert z * n == s;
    calc {
      z + (x - z) / (n + 1.0);
      (z * (n + 1.0) + x - z) / (n + 1.0);
      (z * n + x) / (n + 1.0);
    }
  }

  lemma {:induction false} SumAppend(a: seq<real>, b: seq<real>)
    ensures Sum(a + b) == Sum(a) + Sum(b)
    decreases |b|
  {
    if |b| > 0 {
      var c := a + b;
      assert c[..|c| - 1] == a + b[..|b| - 1];
      assert c[|c| - 1] == b[|b| - 1];
      SumAppend(a, b[..|b| - 1]);
      assert Sum(c) == Sum(c[..|c| - 1]) + c[|c| - 1];
      assert Sum(b) == Sum(b[..|b| - 1]) + b[|b| - 1];
    } else {
      assert a + b == a;
    }
  }

  /** The sum does not depend on the order of the values. */
  lemma {:induction false} SumPermutation(xs: seq<real>, ys: seq<real>)
    requires multiset(xs) == multiset(ys)
    ensures Sum(xs) == Sum(ys)
    decreases |xs|
  {
    if |xs| == 0 {
      assert |ys| == |multiset(ys)| == 0;
    } else {
      var k := |xs| - 1;
      var x := xs[k];
      assert xs == xs[..k] + [x];
      assert x in multiset(ys);
      var j :| 0 <= j < |ys| && ys[j] == x;
      var rest := ys[..j] + ys[j + 1..];
      assert ys == ys[..j] + [x] + ys[j + 1..];
      assert multiset(ys) == multiset(ys[..j]) + multiset{x} + multiset(ys[j + 1..]);
      assert multiset(xs) == multiset(xs[..k]) + multiset{x};
      assert multiset(rest) == multiset(ys[..j]) + multiset(ys[j + 1..]);
      assert multiset(rest) == multiset(ys) - multiset{x};
      assert multiset(xs[..k]) == multiset(xs) - multiset{x};
      SumPermutation(xs[..k], rest);
      SumAppend(ys[..j] + [x], ys[j + 1..]);
      SumAppend(ys[..j], [x]);
      SumAppend(ys[..j], ys[j + 1..]);
      assert Sum([x]) == x by {
        assert [x][..0] == [];
      }
    }
  }

  /** Arrival order changes the intermediate values of the streaming mean but
      not its final value. */
  lemma StreamingMeanOrderIndependent(xs: seq<real>, ys: seq<real>)
    requires multiset(xs) == multiset(ys)
    ensures StreamingMean(xs) == StreamingMean(ys)
  {
    if |xs| > 0 {
      assert |ys| == |multiset(ys)| == |multiset(xs)| == |xs|;
      StreamingMeanIsMean(xs);
      StreamingMeanIsMean(ys);
      SumPermutation(xs, ys);
    } else {
      assert |ys| == |multiset(ys)| == 0;
    }
  }

  /** All values lie in the closed interval from `lo` to `hi`. */
  predicate Within(xs: seq<real>, lo: real, hi: real)
  {
    forall i :: 0 <= i < |xs| ==> lo <= xs[i] <= hi
  }

  lemma {:induction false} SumWithin(xs: seq<real>, lo: real, hi: real)
    requires Within(xs, lo, hi)
    ensures |xs| as real * lo <= Sum(xs) <= |xs| as real * hi
    decreases |xs|
  {
    if |xs| > 0 {
      var p := xs[..|xs| - 1];
      var x := xs[|xs| - 1];
      var n := |p| as real;
      assert Within(p, lo, hi) by {
        forall i | 0 <= i < |p|
          ensures lo <= p[i] <= hi
        {
          assert p[i] == xs[i];
        }
      }
      SumWithin(p, lo, hi);
      assert Sum(xs) == Sum(p) + x;
      assert |xs| as real * lo == n * lo + lo;
      assert |xs| as real * hi == n * hi + hi;
    }
  }

  /** The mean of values in `[lo, hi]` is in `[lo, hi]`. */
  lemma MeanWithin(xs: seq<real>, lo: real, hi: real)
    requires |xs| > 0 && Within(xs, lo, hi)
    ensures lo <= Mean(xs) <= hi
  {
    SumWithin(xs, lo, hi);
    var n := |xs| as real;
    var s := Sum(xs);
    assert Mean(xs) == s / n;
    assert s / n - lo == (s - n * lo) / n;
    assert hi - s / n == (n * hi - s) / n;
  }

  /** The collective opinion `z_col` of a round: the streaming mean of the live
      values, or the given fallback when no neighbour reported. */
  function Collective(xs: seq<real>, fallback: real): (z: real)
    ensures |xs| == 0 ==> z == fallback
    ensures |xs| > 0 ==> z == Mean(xs)
    ensures forall lo, hi :: Within(xs, lo, hi) && lo <= fallback <= hi ==> lo <= z <= hi
  {
    if |xs| == 0 then fallback
    else
      StreamingMeanIsMean(xs);
      forall lo, hi | Within(xs, lo, hi)
        ensures lo <= Mean(xs) <= hi
      {
        MeanWithin(xs, lo, hi);
      }
      StreamingMean(xs)
  }

  /** The weight given to the neighbours' consensus in round `counter`:
      `g + lamda * (counter / switch2Exploit)` below 20 rounds, with C's
      integer division, and 0.99 from then on. */
  function MixingWeight(counter: int): (w: real)
    ensures 0 <= counter ==> G <= w <= 1.0 - Beta
  {
    if counter < RampRounds then G + Lamda * CDiv(counter, SwitchToExploit) as real
    else LateWeight
  }

  /** As written, `counter / switch2Exploit` is an integer division that is 0
      for every counter below 20, so there is no ramp: the weight is exactly
      `g` until it jumps to 0.99. */
  lemma MixingWeightHasNoRamp(counter: int)
    requires 0 <= counter
    ensures counter < RampRounds ==> MixingWeight(counter) == G
    ensures counter >= RampRounds ==> MixingWeight(counter) == LateWeight
  {
    if counter < RampRounds {
      assert CDiv(counter, SwitchToExploit) == 0;
    }
  }

  /** The weight never decreases as rounds go by and stays a convex weight next
      to `beta`. */
  lemma MixingWeightMonotone(c1: int, c2: int)
    requires 0 <= c1 <= c2
    ensures MixingWeight(c1) <= MixingWeight(c2)
    ensures 0.0 <= MixingWeight(c1) <= 1.0 - Beta
  {
    MixingWeightHasNoRamp(c1);
    MixingWeightHasNoRamp(c2);
  }

  function Min3(a: real, b: real, c: real): real
  {
    if a <= b && a <= c then a else if b <= c then b else c
  }

  function Max3(a: real, b: real, c: real): real
  {
    if a >= b && a >= c then a else if b >= c then b else c
  }

  lemma MulNonNegative(a: real, b: real)
    requires 0.0 <= a && 0.0 <= b
    ensures 0.0 <= a * b
  {
  }

  /** A convex combination of three values lies between their bounds. */
  lemma ConvexBetween(a: real, b: real, c: real, x: real, y: real, z: real, lo: real, hi: real)
    requires 0.0 <= a && 0.0 <= b && 0.0 <= c && a + b + c == 1.0
    requires lo <= x <= hi && lo <= y <= hi && lo <= z <= hi
    ensures lo <= a * x + b * y + c * z <= hi
  {
    var p, q, t := a * (x - lo), b * (y - lo), c * (z - lo);
    MulNonNegative(a, x - lo);
    MulNonNegative(b, y - lo);
    MulNonNegative(c, z - lo);
    assert a * x + b * y + c * z == lo + p + q + t;
    var p', q', t' := a * (hi - x), b * (hi - y), c * (hi - z);
    MulNonNegative(a, hi - x);
    MulNonNegative(b, hi - y);
    MulNonNegative(c, hi - z);
    assert a * x + b * y + c * z == hi - p' - q' - t';
  }

  /** `z_m = beta*z_m + w*z_col + (1 - beta - w)*z_s`. For an admissible weight
      the three coefficients are non-negative and sum to one, so the new
      opinion lies between the smallest and the largest of its inputs. */
  function DeGroot(zm: real, zcol: real, zs: real, w: real): (r: real)
    requires 0.0 <= w <= 1.0 - Beta
    ensures Min3(zm, zcol, zs) <= r <= Max3(zm, zcol, zs)
  {
    ConvexBetween(Beta, w, 1.0 - Beta - w, zm, zcol, zs, Min3(zm, zcol, zs), Max3(zm, zcol, zs));
    Beta * zm + w * zcol + (1.0 - Beta - w) * zs
  }

  /** A round of the consensus update with the scheduled weight. */
  function ConsensusUpdate(zm: real, zcol: real, zs: real, counter: int): (r: real)
    requires 0 <= counter
    ensures Min3(zm, zcol, zs) <= r <= Max3(zm, zcol, zs)
  {
    MixingWeightMonotone(counter, counter);
    DeGroot(zm, zcol, zs, MixingWeight(counter))
  }

  /** The chemotaxis smoothing `z_m = beta*z_m + (1 - beta)*z_col`: a convex
      blend that never leaves the interval between its two inputs. */
  function Smooth(zm: real, zcol: real): (r: real)
    ensures (if zm <= zcol then zm else zcol) <= r <= (if zm <= zcol then zcol else zm)
    ensures zm == zcol ==> r == zm
  {
    Beta * zm + (1.0 - Beta) * zcol
  }
}

=== FILE: phases.dfy ===
/** The phase engine: one call of `dispersion`, `consensus` or `chemotaxis`
    as a pure step on the agent, and the dispatch of `loop`. The clock, the
    random byte and the light readings are arguments. */
module Phases {
  import opened Kilo
  import opened Wire
  import opened Drive
  import opened Neighbors
  import opened Opinion
  import opened Robot

  /** Window length of the dispersion phase, in ticks. */
  const DispersionPeriod: nat := 32
  /** Window length of the averaging rounds, in ticks. */
  const AveragingPeriod: nat := 40
  /** Readings averaged into the first opinion (`NFirstSamples`). */
  const MeasureSamples: nat := 20
  /** Distance to the reference light below which the robot has arrived. */
  const ArrivalThreshold: int := 50
  /** Change of light that counts as a gradient signal (`diffThresh`). */
  const DiffThresh: int := 20
  /** Random bytes below this value make the escape turn right. */
  const EscapeRightBelow: int := 180

  // ---------------------------------------------------------------------------
  // Dispersion

  /** `othersDone`: no live mailbox entry reports the dispersing tag. Read as
      a map with distinct ids, the mailbox lets the robot share exactly when
      no neighbour's last report is the dispersing tag. */
  function OthersDone(m: Mailbox): (done: bool)
    requires m.Valid()
    ensures done ==> forall id :: Lookup(m, id) != Some(DispersingTag as real)
    ensures m.Distinct() ==> (done <==> forall id :: Lookup(m, id) != Some(DispersingTag as real))
  {
    var done := forall i :: 0 <= i < m.n ==> m.vals[i] != DispersingTag as real;
    if m.Distinct() then
      LookupLive(m);
      done
    else done
  }

  /** The part of a dispersion window that runs when a message arrived: a far
      peer stops the robot and, unless a live report says a peer is still
      dispersing, makes it ready to share and moves it on to consensus; a
      close peer makes it take a random-walk step. */
  function DispersionHeard(a: Agent, rnd: byte): (r: Agent)
    requires Valid(a)
    ensures Valid(r) && !r.newMessage && r.mailbox == a.mailbox
    ensures r.tick == a.tick && r.zM == a.zM && r.counter == a.counter && r.message == a.message
    ensures a.distance <= MaxDistance ==>
      r.state == a.state && r.subState == Dispersing && r.motor == RandomWalk(a.motor, rnd)
    ensures a.distance > MaxDistance ==>
      && r.motor == SetMotion(a.motor, Stop)
      && (OthersDone(a.mailbox) ==> r.state == Consensus && r.subState == Measure)
      && (!OthersDone(a.mailbox) ==> r.state == a.state && r.subState == WaitForOthers)
    ensures r == a.(newMessage := false, curDistance := a.distance, state := r.state,
                    subState := r.subState, motor := r.motor)
  {
    var b := a.(newMessage := false, subState := Dispersing, curDistance := a.distance);
    var c :=
      if b.curDistance > MaxDistance then
        var w := b.(motor := SetMotion(b.motor, Stop), subState := WaitForOthers);
        if OthersDone(w.mailbox) then w.(subState := ReadyToShare) else w
      else
        b.(motor := RandomWalk(b.motor, rnd));
    if c.subState == ReadyToShare then
      c.(motor := SetMotion(c.motor, Stop), state := Consensus, subState := Measure)
    else c
  }

  /** One call of `dispersion`. Nothing happens inside a window. At a window
      rollover: with no message the robot halts as disconnected; otherwise it
      reacts to the distance of the last peer heard. The mailbox count is
      reset at every rollover. */
  function DispersionStep(a: Agent, ticks: u32, rnd: byte): (r: Agent)
    requires Valid(a)
    ensures Valid(r)
    ensures !WindowElapsed(ticks, a.tick, DispersionPeriod) ==> r == a
    ensures WindowElapsed(ticks, a.tick, DispersionPeriod) ==>
      && r.tick == ticks && r.mailbox.n == 0 && !r.newMessage
      && r.zM == a.zM && r.counter == a.counter && r.message == a.message
    ensures WindowElapsed(ticks, a.tick, DispersionPeriod) && !a.newMessage ==>
      r.state == a.state && r.subState == Disconnected && r.motor == SetMotion(a.motor, Stop)
    ensures WindowElapsed(ticks, a.tick, DispersionPeriod) && a.newMessage && a.distance <= MaxDistance ==>
      r.state == a.state && r.subState == Dispersing && r.motor == RandomWalk(a.motor, rnd)
    ensures WindowElapsed(ticks, a.tick, DispersionPeriod) && a.newMessage && a.distance > MaxDistance ==>
      && r.motor == SetMotion(a.motor, Stop)
      && (OthersDone(a.mailbox) ==> r.state == Consensus && r.subState == Measure)
      && (!OthersDone(a.mailbox) ==> r.state == a.state && r.subState == WaitForOthers)
    ensures r == a.(tick := r.tick, newMessage := r.newMessage, subState := r.subState, state := r.state,
                    motor := r.motor, curDistance := r.curDistance, mailbox := r.mailbox)
  {
    if !WindowElapsed(ticks, a.tick, DispersionPeriod) then a
    else
      var a1 := a.(tick := ticks);
      var a2 :=
        if a1.newMessage then DispersionHeard(a1, rnd)
        else a1.(motor := SetMotion(a1.motor, Stop), subState := Disconnected);
      a2.(mailbox := Clear(a2.mailbox))
  }

  // ---------------------------------------------------------------------------
  // Consensus

  /** The running total `z_m += reading` of the measure loop. */
  function SampleSum(s: seq<u16>): (t: int)
    ensures 0 <= t <= |s| * 0xFFFF
  {
    if |s| == 0 then 0 else SampleSum(s[..|s| - 1]) + s[|s| - 1]
  }

  /** The readings as opinions. */
  function AsReals(s: seq<u16>): (xs: seq<real>)
    ensures |xs| == |s| && forall i :: 0 <= i < |s| ==> xs[i] == s[i] as real
  {
    seq(|s|, i requires 0 <= i < |s| => s[i] as real)
  }

  /** The running total is the sum of the readings. */
  lemma {:induction false} SampleSumIsSum(s: seq<u16>)
    ensures SampleSum(s) as real == Sum(AsReals(s))
    decreases |s|
  {
    if |s| > 0 {
      SampleSumIsSum(s[..|s| - 1]);
      assert AsReals(s)[..|s| - 1] == AsReals(s[..|s| - 1]);
    }
  }

  /** The first opinion: the mean of the light readings of the measure loop. */
  function MeasuredOpinion(samples: seq<u16>): (v: real)
    requires |samples| == MeasureSamples
    ensures 0.0 <= v <= 65535.0 && InRange(v)
  {
    SampleSum(samples) as real / MeasureSamples as real
  }

  /** The first opinion is the arithmetic mean of the measure readings. */
  lemma MeasuredOpinionIsMean(samples: seq<u16>)
    requires |samples| == MeasureSamples
    ensures MeasuredOpinion(samples) == Mean(AsReals(samples))
  {
    SampleSumIsSum(samples);
  }

  /** A value between the smallest and the largest of three in-range opinions
      is in range. */
  lemma BetweenInRange(x: real, y: real, z: real, v: real)
    requires InRange(x) && InRange(y) && InRange(z)
    requires Min3(x, y, z) <= v <= Max3(x, y, z)
    ensures InRange(v)
  {
  }

  /** The collective opinion of an agent's live reports, with an in-range
      fallback, is in range. */
  function LiveCollective(a: Agent, fallback: real): (z: real)
    requires OpinionsValid(a) && InRange(fallback)
    ensures InRange(z)
    ensures a.mailbox.n == 0 ==> z == fallback
    ensures a.mailbox.n > 0 ==> z == Mean(a.mailbox.Live())
  {
    var xs := a.mailbox.Live();
    assert Within(xs, 0.0, MaxOpinion) by {
      forall i | 0 <= i < |xs|
        ensures 0.0 <= xs[i] <= MaxOpinion
      {
        assert xs[i] == a.mailbox.vals[i];
      }
    }
    Collective(xs, fallback)
  }

  /** An averaging round of the consensus phase: the collective opinion of the
      live reports (or the fresh reading when there is none), one more round
      counted, and the DeGroot update of the opinion. */
  function AveragingRound(a: Agent, ticks: u32, light: u16): (r: Agent)
    requires Valid(a)
    ensures Valid(r)
    ensures r.zS == light as real && r.counter == a.counter + 1 && r.mailbox.n == 0 && r.tick == ticks
    ensures a.mailbox.n == 0 ==> r.zCol == light as real
    ensures a.mailbox.n > 0 ==> r.zCol == Mean(a.mailbox.Live())
    ensures Min3(a.zM, r.zCol, r.zS) <= r.zM <= Max3(a.zM, r.zCol, r.zS)
    ensures r == a.(tick := ticks, zCol := r.zCol, counter := r.counter, zS := r.zS, zM := r.zM,
                    mailbox := r.mailbox)
  {
    var zcol := LiveCollective(a, light as real);
    var counter := a.counter + 1;
    var zm := ConsensusUpdate(a.zM, zcol, light as real, counter);
    BetweenInRange(a.zM, zcol, light as real, zm);
    a.(tick := ticks, zCol := zcol, counter := counter, zS := light as real,
       zM := zm, mailbox := Clear(a.mailbox))
  }

  /** The switch to exploitation: when the counter reaches `switch2Exploit`,
      pin the reference light to the opinion, enter chemotaxis and step the
      counter past the threshold so the switch happens once. */
  function ExploitCheck(a: Agent): (r: Agent)
    requires Valid(a)
    ensures Valid(r)
    ensures a.counter == SwitchToExploit ==>
      r.state == Chemotaxis && r.refLight == Trunc(a.zM) && r.counter == SwitchToExploit + 1
    ensures a.counter != SwitchToExploit ==> r == a
    ensures r == a.(refLight := r.refLight, state := r.state, counter := r.counter)
  {
    if a.counter == SwitchToExploit then
      a.(refLight := Trunc(a.zM), state := Chemotaxis, counter := a.counter + 1)
    else a
  }

  /** The sharing part of a `consensus` call: an averaging round when the
      window rolled over, then the exploitation check. */
  function Share(a: Agent, ticks: u32, light: u16): (r: Agent)
    requires Valid(a)
    ensures Valid(r)
    ensures r.subState == a.subState && r.message == a.message && r.messageSent == a.messageSent
    ensures !WindowElapsed(ticks, a.tick, AveragingPeriod) ==>
      r.zM == a.zM && r.mailbox == a.mailbox && r.tick == a.tick
    ensures WindowElapsed(ticks, a.tick, AveragingPeriod) ==>
      && r.tick == ticks && r.mailbox.n == 0 && r.zS == light as real
      && Min3(a.zM, r.zCol, r.zS) <= r.zM <= Max3(a.zM, r.zCol, r.zS)
    ensures
      var c := a.counter + (if WindowElapsed(ticks, a.tick, AveragingPeriod) then 1 else 0);
      && r.counter == (if c == SwitchToExploit then c + 1 else c)
      && (a.state == Consensus ==> (r.state == Chemotaxis <==> c == SwitchToExploit))
    ensures r.state != a.state ==> r.state == Chemotaxis && r.counter == SwitchToExploit + 1
    ensures r.state == Chemotaxis && a.state != Chemotaxis ==> r.refLight == Trunc(r.zM)
    ensures r == a.(tick := r.tick, zCol := r.zCol, counter := r.counter, zS := r.zS, zM := r.zM,
                    mailbox := r.mailbox, refLight := r.refLight, state := r.state)
  {
    var b := if WindowElapsed(ticks, a.tick, AveragingPeriod) then AveragingRound(a, ticks, light) else a;
    ExploitCheck(b)
  }

  /** The part of `consensus` before the sharing round: on `MEASURE`, the
      first opinion is the mean of the readings, the round counter restarts
      and sharing begins; then `send_light` broadcasts the opinion. */
  function Broadcast(a: Agent, samples: seq<u16>): (r: Agent)
    requires Valid(a)
    requires a.subState == Measure ==> |samples| == MeasureSamples
    ensures Valid(r)
    ensures !r.messageSent && r.message[1] == SharingTag && r.message[0] == UidByte(a.uid)
    ensures r.zM - 1.0 / Scale < DecodeOpinion(r.message) <= r.zM
    ensures r.state == a.state && r.tick == a.tick && r.mailbox == a.mailbox
    ensures a.subState == Measure ==>
      r.subState == Sharing && r.counter == 0 && r.zM == MeasuredOpinion(samples)
      && r.zM == Mean(AsReals(samples))
    ensures a.subState != Measure ==> r.subState == a.subState && r.counter == a.counter && r.zM == a.zM
    ensures r == a.(counter := r.counter, zM := r.zM, subState := r.subState, message := r.message,
                    messageSent := false)
  {
    var b :=
      if a.subState == Measure then
        MeasuredOpinionIsMean(samples);
        a.(counter := 0, zM := MeasuredOpinion(samples), subState := Sharing)
      else a;
    SendLight(b)
  }

  /** One call of `consensus`. On entry (`MEASURE`) the opinion is the mean of
      the measure readings and the round counter restarts at 0. Every call
      broadcasts the opinion. While sharing, each window runs an averaging
      round, and the round that brings the counter to `switch2Exploit` pins
      the reference light and hands over to chemotaxis. */
  function ConsensusStep(a: Agent, ticks: u32, samples: seq<u16>, light: u16): (r: Agent)
    requires Valid(a) && a.state == Consensus
    requires a.subState == Measure ==> |samples| == MeasureSamples
    ensures Valid(r)
    ensures !r.messageSent && r.message[1] == SharingTag && r.message[0] == UidByte(a.uid)
    ensures a.subState == Measure || a.subState == Sharing ==> r.subState == Sharing
    ensures a.subState == Measure ==>
      MeasuredOpinion(samples) - 1.0 / Scale < DecodeOpinion(r.message) <= MeasuredOpinion(samples)
    ensures a.subState != Measure ==> a.zM - 1.0 / Scale < DecodeOpinion(r.message) <= a.zM
    ensures a.subState == Sharing && !WindowElapsed(ticks, a.tick, AveragingPeriod) ==>
      r.zM == a.zM && r.mailbox == a.mailbox && r.tick == a.tick
    ensures a.subState == Sharing && WindowElapsed(ticks, a.tick, AveragingPeriod) ==>
      && r.tick == ticks && r.mailbox.n == 0 && r.zS == light as real
      && Min3(a.zM, r.zCol, r.zS) <= r.zM <= Max3(a.zM, r.zCol, r.zS)
    ensures r.state == Consensus || r.state == Chemotaxis
    ensures r.state == Chemotaxis ==> r.refLight == Trunc(r.zM) && r.counter == SwitchToExploit + 1
    ensures r == a.(subState := r.subState, message := r.message, messageSent := false, tick := r.tick,
                    zCol := r.zCol, counter := r.counter, zS := r.zS, zM := r.zM, mailbox := r.mailbox,
                    refLight := r.refLight, state := r.state)
  {
    var b := Broadcast(a, samples);
    if b.subState == Sharing then Share(b, ticks, light) else b
  }

  /** The round schedule of `consensus`: `MEASURE` restarts the count, a
      sharing call counts one round per elapsed window, and the robot moves
      to chemotaxis exactly when the count reaches `switch2Exploit`. Other
      sub-states only broadcast. */
  lemma ConsensusSchedule(a: Agent, ticks: u32, samples: seq<u16>, light: u16)
    requires Valid(a) && a.state == Consensus
    requires a.subState == Measure ==> |samples| == MeasureSamples
    ensures
      var r := ConsensusStep(a, ticks, samples, light);
      var c := a.counter + (if WindowElapsed(ticks, a.tick, AveragingPeriod) then 1 else 0);
      && (a.subState == Measure ==>
            r.state == Consensus && r.counter == (if WindowElapsed(ticks, a.tick, AveragingPeriod) then 1 else 0))
      && (a.subState == Sharing ==>
            && (r.state == Chemotaxis <==> c == SwitchToExploit)
            && r.counter == (if c == SwitchToExploit then c + 1 else c))
      && (a.subState != Measure && a.subState != Sharing ==>
            r.state == Consensus && r.counter == a.counter && r.zM == a.zM && r.mailbox == a.mailbox)
  {
  }

  // ---------------------------------------------------------------------------
  // Chemotaxis

  /** The averaging round of the chemotaxis phase: the opinion is smoothed
      toward the collective opinion, which falls back to the opinion itself
      when no neighbour reported. */
  function SmoothingRound(a: Agent, ticks: u32): (r: Agent)
    requires Valid(a)
    ensures Valid(r)
    ensures r.mailbox.n == 0 && r.tick == ticks
    ensures a.mailbox.n == 0 ==> r.zM == a.zM
    ensures a.mailbox.n > 0 ==> r.zCol == Mean(a.mailbox.Live())
    ensures (if a.zM <= r.zCol then a.zM else r.zCol) <= r.zM <= (if a.zM <= r.zCol then r.zCol else a.zM)
    ensures r == a.(tick := ticks, zCol := r.zCol, zM := r.zM, mailbox := r.mailbox)
  {
    var zcol := LiveCollective(a, a.zM);
    a.(tick := ticks, zCol := zcol, zM := Smooth(a.zM, zcol), mailbox := Clear(a.mailbox))
  }

  /** The direction of the stall escape. */
  function EscapeTurn(rnd: byte): (m: Motion)
    ensures m == Right <==> rnd < EscapeRightBelow
    ensures m == Left <==> rnd >= EscapeRightBelow
  {
    if rnd < EscapeRightBelow then Right else Left
  }

  /** The motion a gradient step chooses from the change `diff` of the
      distance to the reference light: closer drives forward; farther by more
      than one stops, pivots right and drives forward; otherwise the motors
      are left alone. */
  function Steer(d: Motor, diff: int): (r: Motor)
    ensures diff < 0 ==> r == SetMotion(d, Forward)
    ensures diff > 1 ==>
      && r.current == Forward
      && SetMotion(d, Stop).issued <= r.issued
      && |r.issued| >= 4
      && r.issued[|r.issued| - 4..] == CommandsFor(Right) + CommandsFor(Forward)
    ensures 0 <= diff <= 1 ==> r == d
  {
    if diff < 0 then SetMotion(d, Forward)
    else if diff > 1 then TurnThenForward(SetMotion(d, Stop), Right)
    else d
  }

  /** The seeking part of a chemotaxis step, before the stall check. With a
      gradient signal, the last readings are updated and the sign of the
      change of distance decides the motion; without one, the robot drives on
      and counts the step. */
  function Seek(a: Agent, light: u16): (r: Agent)
    requires Valid(a)
    ensures OpinionsValid(r) && 0 <= r.counterConstEnv <= StallLimit + 1
    ensures r == a.(motor := r.motor, lastLight := r.lastLight, diffDist2Ref := r.diffDist2Ref,
                    lastDist2Ref := r.lastDist2Ref, zS := r.zS, counterConstEnv := r.counterConstEnv)
    ensures Abs(a.lastLight - light) > DiffThresh ==>
      && r.lastLight == light && r.lastDist2Ref == a.dist2Ref && r.zS == light as real
      && r.diffDist2Ref == a.dist2Ref - a.lastDist2Ref
      && r.counterConstEnv == a.counterConstEnv
      && (r.diffDist2Ref < 0 ==> r.motor == SetMotion(a.motor, Forward))
      && (r.diffDist2Ref > 1 ==>
            && r.motor.current == Forward
            && SetMotion(a.motor, Stop).issued <= r.motor.issued
            && |r.motor.issued| >= 4
            && r.motor.issued[|r.motor.issued| - 4..] == CommandsFor(Right) + CommandsFor(Forward))
      && (0 <= r.diffDist2Ref <= 1 ==> r.motor == a.motor)
    ensures Abs(a.lastLight - light) <= DiffThresh ==>
      && r.motor == SetMotion(a.motor, Forward)
      && r.lastLight == a.lastLight && r.lastDist2Ref == a.lastDist2Ref && r.zS == a.zS
      && r.diffDist2Ref == a.diffDist2Ref
      && r.counterConstEnv == a.counterConstEnv + 1
  {
    if Abs(a.lastLight - light) > DiffThresh then
      var diff := a.dist2Ref - a.lastDist2Ref;
      a.(lastLight := light, diffDist2Ref := diff, lastDist2Ref := a.dist2Ref, zS := light as real,
         motor := Steer(a.motor, diff))
    else
      a.(motor := SetMotion(a.motor, Forward), counterConstEnv := a.counterConstEnv + 1)
  }

  /** The stall check: past the limit, reset the counter, spin, pivot in the
      random direction and drive forward. */
  function StallCheck(a: Agent, rnd: byte): (r: Agent)
    requires OpinionsValid(a) && 0 <= a.counterConstEnv <= StallLimit + 1
    ensures Valid(r)
    ensures a.counterConstEnv <= StallLimit ==> r == a
    ensures a.counterConstEnv > StallLimit ==>
      && r.counterConstEnv == 0 && r.motor.current == Forward
      && r == a.(counterConstEnv := 0, motor := r.motor)
      && Spin(a.motor).issued <= r.motor.issued
    ensures a.counterConstEnv > StallLimit && a.motor.current != EscapeTurn(rnd) ==>
      && |r.motor.issued| >= 4
      && r.motor.issued[|r.motor.issued| - 4..] == CommandsFor(EscapeTurn(rnd)) + CommandsFor(Forward)
  {
    if a.counterConstEnv > StallLimit then
      a.(counterConstEnv := 0, motor := TurnThenForward(Spin(a.motor), EscapeTurn(rnd)))
    else a
  }

  /** The decision part of a chemotaxis step, once the distance to the
      reference light is known: stop on arrival, otherwise seek and check for
      a stall. */
  function Navigate(a: Agent, light: u16, rnd: byte): (r: Agent)
    requires Valid(a)
    ensures Valid(r)
    ensures r == a.(motor := r.motor, lastLight := r.lastLight, diffDist2Ref := r.diffDist2Ref,
                    lastDist2Ref := r.lastDist2Ref, zS := r.zS, counterConstEnv := r.counterConstEnv)
    ensures a.dist2Ref < ArrivalThreshold ==> r == a.(motor := SetMotion(a.motor, Stop))
    ensures a.dist2Ref >= ArrivalThreshold && Abs(a.lastLight - light) > DiffThresh ==>
      && r.lastLight == light && r.lastDist2Ref == a.dist2Ref && r.zS == light as real
      && r.diffDist2Ref == a.dist2Ref - a.lastDist2Ref
      && r.counterConstEnv == a.counterConstEnv
      && (r.diffDist2Ref < 0 ==> r.motor == SetMotion(a.motor, Forward))
      && (r.diffDist2Ref > 1 ==>
            && r.motor.current == Forward
            && |r.motor.issued| >= 4
            && r.motor.issued[|r.motor.issued| - 4..] == CommandsFor(Right) + CommandsFor(Forward))
      && (0 <= r.diffDist2Ref <= 1 ==> r.motor == a.motor)
    ensures a.dist2Ref >= ArrivalThreshold && Abs(a.lastLight - light) <= DiffThresh ==>
      && r.motor.current == Forward
      && r.lastLight == a.lastLight && r.lastDist2Ref == a.lastDist2Ref
      && (a.counterConstEnv < StallLimit ==>
            r.counterConstEnv == a.counterConstEnv + 1 && r.motor == SetMotion(a.motor, Forward))
      && (a.counterConstEnv == StallLimit ==>
            r.counterConstEnv == 0 && SetMotion(a.motor, Forward).issued <= r.motor.issued)
  {
    if a.dist2Ref < ArrivalThreshold then
      a.(motor := SetMotion(a.motor, Stop))
    else
      StallCheck(Seek(a, light), rnd)
  }

  /** The start of a `chemotaxis` call: the smoothing round when the window
      rolled over, nothing otherwise. */
  function Rollover(a: Agent, ticks: u32): (r: Agent)
    requires Valid(a)
    ensures Valid(r)
    ensures !WindowElapsed(ticks, a.tick, AveragingPeriod) ==> r == a
    ensures WindowElapsed(ticks, a.tick, AveragingPeriod) ==>
      && r.tick == ticks && r.mailbox.n == 0
      && (a.mailbox.n == 0 ==> r.zM == a.zM)
      && (a.mailbox.n > 0 ==> r.zCol == Mean(a.mailbox.Live()))
      && (if a.zM <= r.zCol then a.zM else r.zCol) <= r.zM <= (if a.zM <= r.zCol then r.zCol else a.zM)
      && r == a.(tick := ticks, zCol := r.zCol, zM := r.zM, mailbox := r.mailbox)
  {
    if WindowElapsed(ticks, a.tick, AveragingPeriod) then SmoothingRound(a, ticks) else a
  }

  /** One call of `chemotaxis`: an averaging round when the window rolled
      over, the reference light re-pinned to the opinion, the distance to it
      measured, then the decision. */
  function ChemotaxisStep(a: Agent, ticks: u32, light: u16, rnd: byte): (r: Agent)
    requires Valid(a)
    ensures Valid(r)
    ensures r == a.(tick := r.tick, zCol := r.zCol, zM := r.zM, mailbox := r.mailbox, refLight := r.refLight,
                    ambient := r.ambient, dist2Ref := r.dist2Ref, motor := r.motor, lastLight := r.lastLight,
                    diffDist2Ref := r.diffDist2Ref, lastDist2Ref := r.lastDist2Ref, zS := r.zS,
                    counterConstEnv := r.counterConstEnv)
    ensures r.refLight == Trunc(r.zM) && r.ambient == light && r.dist2Ref == Abs(light - r.refLight)
    ensures !WindowElapsed(ticks, a.tick, AveragingPeriod) ==>
      r.zM == a.zM && r.mailbox == a.mailbox && r.tick == a.tick && r.zCol == a.zCol
    ensures WindowElapsed(ticks, a.tick, AveragingPeriod) ==>
      && r.tick == ticks && r.mailbox.n == 0
      && (a.mailbox.n == 0 ==> r.zM == a.zM)
      && (a.mailbox.n > 0 ==> r.zCol == Mean(a.mailbox.Live()))
      && (if a.zM <= r.zCol then a.zM else r.zCol) <= r.zM <= (if a.zM <= r.zCol then r.zCol else a.zM)
    ensures r.dist2Ref < ArrivalThreshold ==>
      && r.motor == SetMotion(a.motor, Stop) && r.counterConstEnv == a.counterConstEnv
      && r.lastLight == a.lastLight && r.lastDist2Ref == a.lastDist2Ref
    ensures r.dist2Ref >= ArrivalThreshold && Abs(a.lastLight - light) > DiffThresh ==>
      && r.lastLight == light && r.lastDist2Ref == r.dist2Ref && r.zS == light as real
      && r.diffDist2Ref == r.dist2Ref - a.lastDist2Ref
      && r.counterConstEnv == a.counterConstEnv
      && (r.diffDist2Ref < 0 ==> r.motor == SetMotion(a.motor, Forward))
    ensures r.dist2Ref >= ArrivalThreshold && Abs(a.lastLight - light) <= DiffThresh ==>
      && r.motor.current == Forward
      && (a.counterConstEnv < StallLimit ==>
            r.counterConstEnv == a.counterConstEnv + 1 && r.motor == SetMotion(a.motor, Forward))
      && (a.counterConstEnv == StallLimit ==> r.counterConstEnv == 0)
  {
    var a1 := Rollover(a, ticks);
    var ref := Trunc(a1.zM);
    Navigate(a1.(refLight := ref, ambient := light, dist2Ref := Abs(light - ref)), light, rnd)
  }

  // ---------------------------------------------------------------------------
  // The control loop

  /** The external inputs one call of `loop` consumes: the tick clock, a random
      byte, the averaged light reading, and the readings of the measure loop. */
  datatype Inputs = Inputs(ticks: u32, rnd: byte, light: u16, samples: seq<u16>)

  /** One call of `loop`: dispatch on the top-level state. */
  function LoopStep(a: Agent, inp: Inputs): (r: Agent)
    requires Valid(a)
    requires a.state == Consensus && a.subState == Measure ==> |inp.samples| == MeasureSamples
    ensures Valid(r)
    ensures a.state == Chemotaxis ==> r.state == Chemotaxis
    ensures a.state == Dispersion ==> r.state != Chemotaxis
  {
    match a.state
    case Consensus => ConsensusStep(a, inp.ticks, inp.samples, inp.light)
    case Chemotaxis => ChemotaxisStep(a, inp.ticks, inp.light, inp.rnd)
    case Dispersion => DispersionStep(a, inp.ticks, inp.rnd)
  }
}

=== FILE: receive.dfy ===
/** The receive handler `message_rx`: the reaction of an agent to one incoming
    payload and the estimated distance to its sender. */
module Receive {
  import opened Kilo
  import opened Wire
  import opened Neighbors
  import opened Robot

  /** Whether `message_rx` records the payload in the mailbox: during
      dispersion, every report once the robot is no longer dispersing itself;
      otherwise, only opinions (tag 0xCA). */
  function Records(a: Agent, data: Payload): (rec: bool)
    ensures a.state == Dispersion && a.subState == Dispersing ==> !rec
    ensures a.state != Dispersion && data[1] == DispersingTag ==> !rec
  {
    if a.state == Dispersion then a.subState != Dispersing else data[1] == SharingTag
  }

  /** The value recorded for a payload: its status tag during dispersion, the
      decoded opinion otherwise. */
  function Report(a: Agent, data: Payload): (v: real)
    ensures InRange(v)
    ensures a.state == Dispersion ==> v == data[1] as real
    ensures a.state != Dispersion ==> v * Scale == UnpackBigEndian(data[2..6]) as real
  {
    if a.state == Dispersion then data[1] as real else DecodeOpinion(data)
  }

  /** `message_rx`. A message always sets the new-message flag and the stored
      distance. During dispersion the robot answers with its own sub-state
      and, unless it is still dispersing, records the sender's tag. In the
      other phases a dispersing sender pulls the robot back into dispersion to
      wait; any other sender gets the robot's opinion in reply, and a sharing
      sender's opinion is recorded first. The source writes `ids[N]` without a
      bound check, so a new sender needs a free slot. */
  function Rx(a: Agent, data: Payload, dist: byte): (r: Agent)
    requires Valid(a)
    requires Records(a, data) ==> HasRoom(a.mailbox, data[0])
    ensures Valid(r)
    ensures r.newMessage && r.distance == dist && !r.messageSent
    ensures r.zM == a.zM && r.counter == a.counter && r.tick == a.tick && r.motor == a.motor
    ensures r == a.(newMessage := true, distance := dist, state := r.state, subState := r.subState,
                    message := r.message, messageSent := false, mailbox := r.mailbox)
    ensures Records(a, data) ==>
      && Lookup(r.mailbox, data[0]) == Some(Report(a, data))
      && forall id :: id != data[0] ==> Lookup(r.mailbox, id) == Lookup(a.mailbox, id)
    ensures !Records(a, data) ==> r.mailbox == a.mailbox
    ensures a.state == Dispersion ==>
      r.state == Dispersion && r.subState == a.subState
      && r.message[0] == UidByte(a.uid) && r.message[1] == SubStateTag(a.subState)
    ensures a.state != Dispersion && data[1] == DispersingTag ==>
      r.state == Dispersion && r.subState == WaitForOthers
      && r.message[0] == UidByte(a.uid) && r.message[1] == WaitingTag
    ensures a.state != Dispersion && data[1] != DispersingTag ==>
      r.state == a.state && r.subState == a.subState
      && r.message[0] == UidByte(a.uid) && r.message[1] == SharingTag
      && a.zM - 1.0 / Scale < DecodeOpinion(r.message) <= a.zM
  {
    var b := a.(newMessage := true, distance := dist);
    if b.state == Dispersion then
      var c := SendSubState(b, b.subState);
      if Records(a, data) then
        UpsertKeepsInRange(c.mailbox, data[0], Report(a, data));
        c.(mailbox := Upsert(c.mailbox, data[0], Report(a, data)))
      else c
    else if data[1] == DispersingTag then
      SendSubState(b.(state := Dispersion, subState := WaitForOthers), WaitForOthers)
    else
      var c :=
        if Records(a, data) then
          UpsertKeepsInRange(b.mailbox, data[0], Report(a, data));
          b.(mailbox := Upsert(b.mailbox, data[0], Report(a, data)))
        else b;
      SendLight(c)
  }

  /** End to end: the opinion one agent broadcasts reaches a sharing neighbour
      within one thousandth of its value and never above it, filed under the
      sender's id byte. */
  lemma SharedOpinionArrives(sender: Agent, receiver: Agent, dist: byte)
    requires Valid(sender) && Valid(receiver) && receiver.state != Dispersion
    requires HasRoom(receiver.mailbox, UidByte(sender.uid))
    ensures
      var r := Rx(receiver, SendLight(sender).message, dist);
      && r.mailbox.n > 0
      && Lookup(r.mailbox, UidByte(sender.uid)).Some?
      && sender.zM - 1.0 / Scale < Lookup(r.mailbox, UidByte(sender.uid)).value <= sender.zM
  {
    var m := SendLight(sender).message;
    var r := Rx(receiver, m, dist);
    assert Records(receiver, m);
    var k := ContainsId(r.mailbox, UidByte(sender.uid));
    assert k != -1;
  }

  /** Receiving the same payload twice has the effect of receiving it once,
      unless the first copy pulled the robot back into dispersion (then the
      second copy is recorded as a dispersing report). */
  lemma RxIdempotent(a: Agent, data: Payload, dist: byte)
    requires Valid(a)
    requires Records(a, data) ==> HasRoom(a.mailbox, data[0])
    requires a.state == Dispersion || data[1] != DispersingTag
    ensures Records(Rx(a, data, dist), data) ==> HasRoom(Rx(a, data, dist).mailbox, data[0])
    ensures Rx(Rx(a, data, dist), data, dist) == Rx(a, data, dist)
  {
    var r := Rx(a, data, dist);
    if Records(a, data) {
      assert Lookup(r.mailbox, data[0]).Some?;
      UpsertIdempotent(a.mailbox, data[0], Report(a, data));
    }
  }
}

=== FILE: robot.dfy ===
/** The agent: the controller's global variables gathered into one immutable
    record, the invariant every step keeps, and the outgoing-message gate
    (`send_light`, `send_subState`, `message_tx`, `message_tx_success`). */
module Robot {
  import opened Kilo
  import opened Wire
  import opened Drive
  import opened Neighbors

  /** The per-robot state. `distance` stands for the stored measurement `dist`,
      represented by the estimate `estimate_distance` makes of it. */
  datatype Agent = Agent(
    uid: u16,
    state: Phase,
    subState: SubState,
    motor: Motor,
    message: Payload,
    messageSent: bool,
    newMessage: bool,
    distance: byte,
    curDistance: byte,
    mailbox: Mailbox,
    zCol: real,
    zM: real,
    zS: real,
    counter: int,
    tick: u32,
    lastLight: int,
    lastDist2Ref: int,
    refLight: int,
    ambient: int,
    dist2Ref: int,
    diffDist2Ref: int,
    counterConstEnv: int)

  /** Consecutive no-change chemotaxis steps tolerated before the escape. */
  const StallLimit: int := 40

  /** Every live mailbox value is an opinion a payload can carry. */
  predicate LiveInRange(m: Mailbox)
    requires m.Valid()
  {
    forall i :: 0 <= i < m.n ==> InRange(m.vals[i])
  }

  /** The invariant of the controller: the mailbox is well formed with distinct
      ids, every opinion stays within what the wire format can carry (so the
      conversion in `send_light` is always defined), the round counter is not
      negative, and the stall counter never passes its limit. */
  predicate Valid(a: Agent)
  {
    OpinionsValid(a) && 0 <= a.counterConstEnv <= StallLimit
  }

  /** The part of the invariant about the mailbox, the opinions and the round
      counter. */
  predicate OpinionsValid(a: Agent)
  {
    && a.mailbox.Valid()
    && a.mailbox.Distinct()
    && LiveInRange(a.mailbox)
    && InRange(a.zM) && InRange(a.zS) && InRange(a.zCol)
    && 0 <= a.counter
  }

  /** The state after `setup`: all globals zero-initialised except the tick
      (the clock value `setup` read) and `counter = 1`; `data[0] = 0` and the
      dummy message is armed. */
  function Initial(uid: u16, ticks: u32): (a: Agent)
    ensures Valid(a)
    ensures a.state == Dispersion && a.subState == Dispersing && a.motor.current == Stop
    ensures a.mailbox.n == 0 && !a.newMessage && !a.messageSent
    ensures a.message == [0, 0, 0, 0, 0, 0] && MessageTx(a) == Some([0, 0, 0, 0, 0, 0])
    ensures a.counter == 1 && a.tick == ticks && a.uid == uid
  {
    Agent(uid, Dispersion, Dispersing, Motor(Stop, []), [0, 0, 0, 0, 0, 0], false, false,
          0, 0, EmptyMailbox(), 0.0, 0.0, 0.0, 1, ticks, 0, 0, 0, 0, 0, 0, 0)
  }

  /** Recording a report whose value is in range keeps every live value in range. */
  lemma UpsertKeepsInRange(m: Mailbox, id: int, v: real)
    requires m.Valid() && HasRoom(m, id) && LiveInRange(m) && InRange(v)
    ensures LiveInRange(Upsert(m, id, v))
  {
    var r := Upsert(m, id, v);
    forall i | 0 <= i < r.n
      ensures InRange(r.vals[i])
    {
      if ContainsId(m, id) == -1 {
        if i != m.n {
          assert r.vals[i] == m.vals[i];
        }
      } else if i != ContainsId(m, id) {
        assert r.vals[i] == m.vals[i];
      }
    }
  }

  /** `send_light`: the current opinion, scaled to fixed point, goes into
      bytes 2..5 behind the uid and the sharing tag, and the message is armed. */
  function SendLight(a: Agent): (r: Agent)
    requires Encodable(a.zM)
    ensures r == a.(message := r.message, messageSent := false)
    ensures r.message[0] == UidByte(a.uid) && r.message[1] == SharingTag
    ensures a.zM - 1.0 / Scale < DecodeOpinion(r.message) <= a.zM
  {
    OpinionRoundTrip(a.uid, a.zM);
    a.(message := EncodeOpinion(a.uid, a.zM), messageSent := false)
  }

  /** `send_subState`: the uid and the tag of sub-state `s` go into bytes 0 and
      1, bytes 2..5 keep what they held, and the message is armed. */
  function SendSubState(a: Agent, s: SubState): (r: Agent)
    ensures r == a.(message := r.message, messageSent := false)
    ensures r.message[0] == UidByte(a.uid) && r.message[1] == SubStateTag(s)
    ensures r.message[2..] == a.message[2..]
  {
    a.(message := [UidByte(a.uid), SubStateTag(s)] + a.message[2..], messageSent := false)
  }

  /** `message_tx`: the armed message is offered to the transport, and nothing
      once it has been sent. */
  function MessageTx(a: Agent): (r: Option<Payload>)
    ensures r.Some? <==> !a.messageSent
    ensures r.Some? ==> r.value == a.message
  {
    if !a.messageSent then Some(a.message) else None
  }

  /** `message_tx_success`: the transport reports the message sent. */
  function MessageTxSuccess(a: Agent): (r: Agent)
    ensures MessageTx(r) == None
    ensures r == a.(messageSent := true)
  {
    a.(messageSent := true)
  }

  /** At most one message is in flight: once sent, nothing is offered until a
      send function arms a new message, which is then offered as written. */
  lemma TransmitGate(a: Agent, s: SubState)
    requires Encodable(a.zM)
    ensures MessageTx(MessageTxSuccess(a)) == None
    ensures MessageTx(MessageTxSuccess(MessageTxSuccess(a))) == None
    ensures MessageTx(SendLight(MessageTxSuccess(a))) == Some(SendLight(a).message)
    ensures MessageTx(SendSubState(MessageTxSuccess(a), s)) == Some(SendSubState(a, s).message)
  {
  }
}

=== FILE: scenarios.dfy ===
/** Runs of the controller over several calls of `loop` and `message_rx`,
    stated from the point of view of one robot. */
module Scenarios {
  import opened Kilo
  import opened Wire
  import opened Drive
  import opened Neighbors
  import opened Opinion
  import opened Robot
  import opened Phases
  import opened Receive

  /** A robot that has just started and hears one peer from farther than
      `MAX_DISTANCE` stops and enters the consensus phase at the next window
      rollover, whatever the peer sent. A robot whose own sub-state is still
      `NULL` records no report, not even the dispersing tag 0xAA, so the
      `othersDone` scan runs over an empty mailbox and always passes. */
  lemma FarLoneRobotStartsConsensus(uid: u16, t0: u32, data: Payload, dist: byte, ticks: u32, rnd: byte)
    requires dist > MaxDistance
    requires WindowElapsed(ticks, t0, DispersionPeriod)
    ensures Rx(Initial(uid, t0), data, dist).mailbox.n == 0
    ensures
      var a := DispersionStep(Rx(Initial(uid, t0), data, dist), ticks, rnd);
      a.state == Consensus && a.subState == Measure && a.motor.current == Stop
  {
    var a := Rx(Initial(uid, t0), data, dist);
    assert a.mailbox.n == 0;
    assert OthersDone(a.mailbox);
  }

  /** A robot that stops hearing anything halts as disconnected at the next
      rollover, and further silent windows issue no motor command at all. */
  lemma SilenceHalts(a: Agent, t1: u32, t2: u32, rnd1: byte, rnd2: byte)
    requires Valid(a) && a.state == Dispersion && !a.newMessage
    requires WindowElapsed(t1, a.tick, DispersionPeriod) && WindowElapsed(t2, t1, DispersionPeriod)
    ensures
      var b := DispersionStep(a, t1, rnd1);
      var c := DispersionStep(b, t2, rnd2);
      && b.subState == Disconnected && b.motor.current == Stop
      && c.subState == Disconnected && c.motor == b.motor
  {
  }

  /** A neighbour that reports it is still dispersing keeps a waiting robot
      from moving on to consensus, however far away that neighbour is. */
  lemma DispersingNeighbourBlocksSharing(a: Agent, data: Payload, dist: byte, ticks: u32, rnd: byte)
    requires Valid(a) && a.state == Dispersion && a.subState == WaitForOthers
    requires data[1] == DispersingTag && HasRoom(a.mailbox, data[0])
    requires dist > MaxDistance && WindowElapsed(ticks, a.tick, DispersionPeriod)
    ensures
      var b := Rx(a, data, dist);
      var c := DispersionStep(b, ticks, rnd);
      c.state == Dispersion && c.subState == WaitForOthers && c.motor.current == Stop
  {
    var b := Rx(a, data, dist);
    assert Records(a, data);
    assert Lookup(b.mailbox, data[0]) == Some(DispersingTag as real);
  }

  /** The averaging round that brings the counter to `switch2Exploit` hands
      over to chemotaxis, with the reference light pinned to the opinion, and
      from then on `loop` stays in chemotaxis. */
  lemma LastRoundStartsChemotaxis(a: Agent, ticks: u32, light: u16, inp: Inputs)
    requires Valid(a) && a.state == Consensus && a.subState == Sharing
    requires a.counter == SwitchToExploit - 1 && WindowElapsed(ticks, a.tick, AveragingPeriod)
    ensures
      var b := ConsensusStep(a, ticks, [], light);
      && b.state == Chemotaxis && b.counter == SwitchToExploit + 1 && b.refLight == Trunc(b.zM)
      && LoopStep(b, inp).state == Chemotaxis
  {
  }

  /** Before the last round, a round keeps the robot in consensus. */
  lemma EarlierRoundsStayInConsensus(a: Agent, ticks: u32, light: u16)
    requires Valid(a) && a.state == Consensus && a.subState == Sharing
    requires 0 <= a.counter < SwitchToExploit - 1
    ensures
      var b := ConsensusStep(a, ticks, [], light);
      b.state == Consensus && b.subState == Sharing && b.counter <= a.counter + 1
  {
  }

  /** As written, an averaging round of the first twenty gives the neighbours'
      consensus exactly the weight `g = 0.6`, next to `beta = 0.01`: the round
      number has no effect on the update, because `counter / switch2Exploit`
      is an integer division. */
  lemma EarlyRoundsHaveNoRamp(a: Agent, ticks: u32, light: u16)
    requires Valid(a) && a.state == Consensus && a.subState == Sharing
    requires a.counter + 1 < RampRounds && WindowElapsed(ticks, a.tick, AveragingPeriod)
    ensures ConsensusStep(a, ticks, [], light).counter == a.counter + 1
    ensures ConsensusStep(a, ticks, [], light).zS == light as real
    ensures
      var r := ConsensusStep(a, ticks, [], light);
      r.zM == 0.01 * a.zM + 0.6 * r.zCol + 0.39 * light as real
  {
    var b := Broadcast(a, []);
    assert b.zM == a.zM && b.counter == a.counter && b.subState == Sharing && b.tick == a.tick;
    var c := AveragingRound(b, ticks, light);
    NoRampRound(b, ticks, light);
    assert ExploitCheck(c) == c;
    var r := ConsensusStep(a, ticks, [], light);
    assert r == Share(b, ticks, light);
    assert r.zM == c.zM && r.zCol == c.zCol && r.counter == c.counter && r.zS == c.zS;
  }

  /** The averaging round itself, below twenty rounds: the weight is `g = 0.6`. */
  lemma NoRampRound(a: Agent, ticks: u32, light: u16)
    requires Valid(a) && a.counter + 1 < RampRounds
    ensures
      var c := AveragingRound(a, ticks, light);
      c.zM == 0.01 * a.zM + 0.6 * c.zCol + 0.39 * light as real
  {
    var zcol := LiveCollective(a, light as real);
    MixingWeightHasNoRamp(a.counter + 1);
    assert AveragingRound(a, ticks, light).zM == DeGroot(a.zM, zcol, light as real, G);
  }

  /** As written, a step that senses a gradient does not reset the stall
      counter: a robot at the limit that senses a change and then one
      unchanged reading spins and escapes, although it was not stuck. */
  lemma StallCountSurvivesGradient(a: Agent, t1: u32, t2: u32, light1: u16, light2: u16, rnd1: byte, rnd2: byte)
    requires Valid(a) && a.state == Chemotaxis && a.counterConstEnv == StallLimit
    requires !WindowElapsed(t1, a.tick, AveragingPeriod) && !WindowElapsed(t2, a.tick, AveragingPeriod)
    requires Abs(light1 - Trunc(a.zM)) >= ArrivalThreshold && Abs(light2 - Trunc(a.zM)) >= ArrivalThreshold
    requires Abs(a.lastLight - light1) > DiffThresh && Abs(light1 - light2) <= DiffThresh
    ensures
      var b := ChemotaxisStep(a, t1, light1, rnd1);
      var c := ChemotaxisStep(b, t2, light2, rnd2);
      && b.counterConstEnv == StallLimit
      && c.counterConstEnv == 0 && c.motor.current == Forward
  {
  }
}

=== FILE: wire.dfy ===
/** The 6-byte wire payload: byte 0 the sender id, byte 1 a status tag,
    bytes 2..5 a big-endian `uint32_t` holding an opinion scaled by 1000. */
module Wire {
  import opened Kilo

  const DispersingTag: byte := 0xAA
  const WaitingTag: byte := 0xAB
  const SharingTag: byte := 0xCA
  /** The tag `send_subState` falls back to for every other sub-state. */
  const OtherTag: byte := 0xBB

  /** Fixed-point scale of an opinion on the wire. */
  const Scale: real := 1000.0

  const PayloadLength: nat := 6

  type Payload = s: seq<byte> | |s| == PayloadLength witness [0, 0, 0, 0, 0, 0]

  // ---------------------------------------------------------------------------
  // Bit operations on uint32_t

  function Pow2(k: nat): nat
  {
    if k == 0 then 1 else 2 * Pow2(k - 1)
  }

  /** Bitwise OR of two naturals, bit by bit from the least significant end. */
  function BitOr(x: nat, y: nat): nat
    decreases x + y
  {
    if x == 0 then y
    else if y == 0 then x
    else 2 * BitOr(x / 2, y / 2) + (if x % 2 == 1 || y % 2 == 1 then 1 else 0)
  }

  /** OR-ing a value whose low k bits are clear with a value below 2^k adds them. */
  lemma {:induction false} BitOrDisjoint(h: nat, b: nat, k: nat)
    requires b < Pow2(k)
    ensures BitOr(h * Pow2(k), b) == h * Pow2(k) + b
    decreases k
  {
    if k == 0 || b == 0 || h == 0 {
    } else {
      var a := h * Pow2(k);
      assert a == 2 * (h * Pow2(k - 1));
      assert a / 2 == h * Pow2(k - 1) && a % 2 == 0;
      BitOrDisjoint(h, b / 2, k - 1);
    }
  }

  /** `x << 8` on `uint32_t`: the bits shifted past bit 31 are lost. */
  function ShiftLeft8(x: u32): (r: u32)
    ensures r % 256 == 0
  {
    (x * 256) % TwoTo32
  }

  /** `x |= b` for a byte `b`, on a value whose low byte is clear. */
  function OrByte(x: u32, b: byte): (r: u32)
    requires x % 256 == 0
    ensures r == x + b
  {
    assert Pow2(8) == 256;
    BitOrDisjoint(x / 256, b, 8);
    BitOr(x, b)
  }

  /** `x & 0xFF`. */
  function Low8(x: nat): byte
  {
    x % 256
  }

  // ---------------------------------------------------------------------------
  // Big-endian packing of the fixed-point opinion (send_light / message_rx)

  /** Bytes 2..5 written by `send_light`: `(x >> 24) & 0xFF`, ..., `x & 0xFF`. */
  function PackBigEndian(x: u32): (b: seq<byte>)
    ensures |b| == 4
    ensures DigitsValue(b[0], b[1], b[2], b[3]) == x
  {
    DigitsOfValue(x);
    [Low8(x / 0x100_0000), Low8(x / 0x1_0000), Low8(x / 0x100), Low8(x)]
  }

  /** The base-256 value of four big-endian digits. */
  function DigitsValue(d0: byte, d1: byte, d2: byte, d3: byte): int
  {
    ((d0 as int * 256 + d1) * 256 + d2) * 256 + d3
  }

  /** Shifting a value below 2^24 left by 8 loses nothing. */
  lemma ShiftLeft8Small(x: u32)
    requires x < 0x100_0000
    ensures ShiftLeft8(x) == x * 256
  {
  }

  /** The reassembly in `message_rx`: start from the first byte, then three
      times shift left by 8 and OR in the next byte. No bit is lost: the
      result is the base-256 value of the four bytes. */
  function UnpackBigEndian(b: seq<byte>): (light: u32)
    requires |b| == 4
    ensures light == DigitsValue(b[0], b[1], b[2], b[3])
  {
    ShiftLeft8Small(b[0]);
    var light := OrByte(ShiftLeft8(b[0]), b[1]);
    assert light == b[0] as int * 256 + b[1];
    ShiftLeft8Small(light);
    var light := OrByte(ShiftLeft8(light), b[2]);
    ShiftLeft8Small(light);
    OrByte(ShiftLeft8(light), b[3])
  }

  lemma ShiftsAreDigits(x: nat)
    ensures x / 0x1_0000 == (x / 256) / 256
    ensures x / 0x100_0000 == ((x / 256) / 256) / 256
  {
  }

  lemma DivMod256(q: int, r: int)
    requires 0 <= r < 256
    ensures (q * 256 + r) / 256 == q && (q * 256 + r) % 256 == r
  {
  }

  lemma PackDigits(x: u32, d0: byte, d1: byte, d2: byte, d3: byte)
    requires x == DigitsValue(d0, d1, d2, d3)
    ensures PackBigEndian(x) == [d0, d1, d2, d3]
  {
    ShiftsAreDigits(x);
    var q1: int := d0 as int * 256 + d1;
    var q2: int := q1 * 256 + d2;
    assert x == q2 * 256 + d3;
    DivMod256(q2, d3);
    DivMod256(q1, d2);
    DivMod256(d0, d1);
    assert x / 256 == q2 && q2 / 256 == q1 && q1 / 256 == d0;
  }

  /** A natural is its quotient by 256, times 256, plus its low byte. */
  lemma Split256(x: nat)
    ensures x == (x / 256) * 256 + x % 256
  {
  }

  /** The four bytes `send_light` writes are the base-256 digits of the value. */
  lemma DigitsOfValue(x: u32)
    ensures DigitsValue(Low8(x / 0x100_0000), Low8(x / 0x1_0000), Low8(x / 0x100), Low8(x)) == x
  {
    ShiftsAreDigits(x);
    var q1 := x / 256;
    var q2 := q1 / 256;
    var q3 := q2 / 256;
    Split256(x);
    Split256(q1);
    Split256(q2);
    assert q3 < 256;
    assert Low8(x / 0x100_0000) == q3 && Low8(x / 0x1_0000) == q2 % 256;
    assert Low8(x / 0x100) == q1 % 256 && Low8(x) == x % 256;
  }

  /** Every 32-bit value survives packing and reassembly. */
  lemma UnpackPack(x: u32)
    ensures UnpackBigEndian(PackBigEndian(x)) == x
  {
    var b := PackBigEndian(x);
    assert DigitsValue(b[0], b[1], b[2], b[3]) == x;
  }

  /** Every four bytes survive reassembly and packing. */
  lemma PackUnpack(b: seq<byte>)
    requires |b| == 4
    ensures PackBigEndian(UnpackBigEndian(b)) == b
  {
    PackDigits(UnpackBigEndian(b), b[0], b[1], b[2], b[3]);
  }

  // ---------------------------------------------------------------------------
  // Fixed-point opinions

  /** The opinions `uint32_t x = z_m * 1000` can convert without leaving the
      range of `uint32_t` (outside it the conversion is undefined in C). */
  predicate Encodable(v: real)
  {
    0.0 <= v && v * Scale < TwoTo32 as real
  }

  /** The largest opinion a payload can carry, `(2^32 - 1) / 1000`. */
  const MaxOpinion: real := 4294967.295

  /** The opinions an agent can hold: never negative and never above what a
      payload can carry. */
  predicate InRange(v: real)
  {
    0.0 <= v <= MaxOpinion
  }

  /** `uint32_t x = z_m * 1000`: scale, then truncate toward zero. */
  function Quantize(v: real): (x: u32)
    requires Encodable(v)
    ensures x as real <= v * Scale < x as real + 1.0
  {
    (v * Scale).Floor
  }

  /** `light / (double) 1000`. */
  function Dequantize(x: u32): (v: real)
    ensures InRange(v) && Encodable(v)
    ensures v * Scale == x as real
  {
    x as real / Scale
  }

  /** The fixed-point step loses less than one thousandth and never rounds up. */
  lemma QuantizationBound(v: real)
    requires Encodable(v)
    ensures v - 1.0 / Scale < Dequantize(Quantize(v)) <= v
  {
  }

  // ---------------------------------------------------------------------------
  // Tags and whole payloads

  /** The tag `send_subState` broadcasts for a sub-state. */
  function SubStateTag(s: SubState): (t: byte)
    ensures t == DispersingTag <==> s == Dispersing
    ensures t == WaitingTag <==> s == WaitForOthers
    ensures t == SharingTag <==> s == ReadyToShare || s == Measure
    ensures t == OtherTag <==> s == Disconnected || s == Sharing
  {
    match s
    case Dispersing => DispersingTag
    case WaitForOthers => WaitingTag
    case ReadyToShare => SharingTag
    case Measure => SharingTag
    case _ => OtherTag
  }

  /** `data[0] = kilo_uid`: the 16-bit id is truncated to its low byte. */
  function UidByte(uid: u16): (id: byte)
    ensures uid < 256 ==> id == uid
    ensures (uid - id) % 256 == 0
  {
    uid % 256
  }

  /** The payload `send_light` writes for opinion `v`. */
  function EncodeOpinion(uid: u16, v: real): (p: Payload)
    requires Encodable(v)
    ensures p[0] == UidByte(uid) && p[1] == SharingTag
  {
    [UidByte(uid), SharingTag] + PackBigEndian(Quantize(v))
  }

  /** The opinion `message_rx` reads out of bytes 2..5 of a payload. */
  function DecodeOpinion(p: Payload): (v: real)
    ensures InRange(v)
  {
    Dequantize(UnpackBigEndian(p[2..6]))
  }

  /** Encoding then decoding an opinion loses less than one thousandth. */
  lemma OpinionRoundTrip(uid: u16, v: real)
    requires Encodable(v)
    ensures v - 1.0 / Scale < DecodeOpinion(EncodeOpinion(uid, v)) <= v
  {
    var p := EncodeOpinion(uid, v);
    assert p[2..6] == PackBigEndian(Quantize(v));
    UnpackPack(Quantize(v));
    QuantizationBound(v);
  }

  /** Every received opinion field re-encodes to the same four bytes: decoding
      is exact on what arrives over the wire. */
  lemma DecodeEncodeBytes(uid: u16, p: Payload)
    ensures EncodeOpinion(uid, DecodeOpinion(p))[2..6] == p[2..6]
  {
    var x := UnpackBigEndian(p[2..6]);
    assert Quantize(Dequantize(x)) == x;
    PackUnpack(p[2..6]);
  }
}
